=== FILE: README.md ===
# rag_chatbot: a verified model of its control flow and bookkeeping

rag_chatbot is a retrieval-augmented chatbot built on llama_index. Almost all
of its work happens inside llama_index, an LLM or a UI framework. This
project models the logic that sits around those calls and proves what it
guarantees:

- the agentic query-refinement workflow (`AgenticWorkflow`): a state machine
  over the events Start, JudgeQuery, ImproveQuery, AttachContext, Search,
  JudgeResponse, ReQuery, Answer and Stop, with a per-turn store and a
  conversation memory that outlives the turn;
- the front end of the query-fusion retriever: it parses generated queries,
  builds the query list, dispatches on the fusion mode and truncates to
  `top_k`;
- the router query engine and the select-all selector;
- the best-answer picker of the parallel search engine;
- page-text assembly and Document construction in the PDF parser;
- the index managers' lazy caches, the tracked-document bookkeeping and its
  tri-state `has_data`, and the index helpers' defaults and fallbacks;
- the document readers' name derivation, extractor-map precedence and caches.

Every LLM reply, engine answer, retriever result and storage outcome is an
input value. Each component is therefore a deterministic function of its
state and those inputs.

Modules:

- `Common`: Option, Result, and the Python exceptions raised. Also Python list
  indexing and slicing, written out with their negative-index rules.
- `Text`: the Python `str` operations the code relies on, with their edge
  cases written out: `strip`, `split`, `join`, `splitlines()[0]`, `str(n)`
  and `int(s)`.
- `Workflow`: rag/agent/flow.py with rag/agent/events.py.
  - Pure step functions and a pure driver `Run` are the specification.
  - Multi-step properties are lemmas about `Run`.
  - The class `AgenticWorkflow` updates its fields one step at a time, as the
    source does. Each method is proved to agree with its step function, and
    `RunTurn` with `Turn`.
  - The store helpers `_get`/`_set` are the reads and writes of the class
    field `queryData`.
- `Retriever`: cli/lib/rag/retriever.py.
- `Router`: cli/lib/rag/engine.py and rag/lib/engine.py. `AQuery` is the
  looping method, proved equal to the function `Route`.
- `ParallelSearch`: rag/lib/engines/parallel_rag_search_engine.py.
- `PdfParser`: rag/lib/readers/parsers/pdf_parser.py. The class's loop
  methods are proved equal to the functions `Pages`, `Documents` and `Load`.
- `IndexSetup`: cli/lib/rag/index.py.
- `Indexes`: rag/lib/types.py and
  cli/lib/rag/indexes/vector_memory_index_manager.py, as classes with
  mutable fields.
- `Readers`: rag/lib/reader.py and cli/lib/rag/readers/generic_reader.py.

## Model

| member | source | states |
|---|---|---|
| Common.PyIndex | rag/lib/engines/parallel_rag_search_engine.py:52 | `xs[k]` succeeds exactly when -len <= k < len; a negative k counts from the end; otherwise IndexError |
| Common.PyPrefix | cli/lib/rag/retriever.py:65 | `xs[:k]` is a prefix of xs of length min(k, len) (len + k, floored at 0, for negative k) |
| Text.StripBy | rag/agent/flow.py:93 | `strip` returns the slice of s after the leading run of stripped characters, and neither of its ends can be stripped |
| Text.StripRemovesOnlyDropped | rag/agent/flow.py:93 | everything `strip` removes, before and after the kept slice, is a stripped character |
| Text.StripEmptyIff | rag/agent/flow.py:93 | `strip` gives "" exactly when every character would be stripped |
| Text.StripIdempotent | rag/agent/flow.py:120 | stripping twice is stripping once |
| Text.Split | cli/lib/rag/retriever.py:58 | `split(sep)` gives at least one piece, and no piece holds the separator |
| Text.JoinSplit | cli/lib/rag/retriever.py:58 | joining the pieces of `split` with the separator gives back the string |
| Text.SplitJoin | rag/lib/engines/parallel_rag_search_engine.py:40 | splitting what `"\n".join` built gives back the parts when no part holds a line break |
| Text.FirstLine | rag/agent/flow.py:241 | `splitlines()[0]` fails exactly on "" and is otherwise the longest prefix without a line boundary |
| Text.ParseNatToString | rag/lib/readers/parsers/pdf_parser.py:101 | `int(str(n)) == n` for every natural n of at most 4300 digits, the most `str` renders |
| Text.ParseNegatedNatToString | rag/lib/engines/parallel_rag_search_engine.py:51 | `int("-" + str(n)) == -n` for every natural n of at most 4300 digits |
| Text.ParseInt | rag/lib/engines/parallel_rag_search_engine.py:51 | `int(s)` succeeds only when s holds a digit and none of U+001C..U+001F, which `isspace()` counts as whitespace but `int()` rejects anywhere in the string; more than 4300 digits (leading zeros counted, sign and underscores not) is no integer |
| Text.ParseIntDigitLimit | rag/lib/engines/parallel_rag_search_engine.py:51 | a run of more than 4300 digits does not parse, whatever its value |
| Workflow.StartTurn | rag/agent/flow.py:43-68 | `initialize` sets up the handles and replaces the store: original query and query are the incoming query, no responses, judge query and count absent (count reads 0); memory unchanged; emits JudgeQuery with that query |
| Workflow.JudgeQueryStep | rag/agent/flow.py:70-101 | the judge runs only when the judged query differs from the stored query and the count is below 1; running it records the query and raises the count by one, otherwise the store is unchanged; ImproveQuery follows exactly when the judge ran and its stripped reply is "bad", otherwise AttachContext; both carry the event's query |
| Workflow.ImproveQueryStep | rag/agent/flow.py:103-122 | the stripped rewrite goes back to JudgeQuery |
| Workflow.SearchQueryFor | rag/agent/flow.py:124-154 | with empty memory the search query is the query itself; otherwise it is the context, a blank line, then the query, so it always ends with the query |
| Workflow.SearchStep | rag/agent/flow.py:156-167 | memory gains exactly USER(query) then ASSISTANT(stripped answer); `responses[query]` becomes the answer and every other key keeps its value; nothing else in the store changes |
| Workflow.Verdict | rag/agent/flow.py:240-241 | the verdict exists exactly when the stripped reply is non-empty; it is stripped and holds no line boundary |
| Workflow.JudgeStep | rag/agent/flow.py:169-246 | an empty reply raises; otherwise ReQuery follows exactly when the verdict is "retry", else Answer, with query and response passed on unchanged |
| Workflow.ReQueryStep | rag/agent/flow.py:248-289 | the store's query becomes the stripped second rewrite and nothing else changes (the judge's bookkeeping included); emits JudgeQuery with it |
| Workflow.AnswerStep | rag/agent/flow.py:291-307 | the answering model's reply becomes the stop event's result |
| Workflow.CallsFor | rag/agent/flow.py:79-83 | the query judge is consulted exactly when the judge guard holds at a JudgeQuery; Answer is exactly the step that consults only the answering model |
| Workflow.RunStep | rag/agent/flow.py:43-307 | one step: only Search writes memory (one user/assistant pair); within a turn the original query is kept and only ReQuery writes the query; the judge count rises exactly by the judge consultations; ImproveQuery follows only a consultation; only Answer emits Stop |
| Workflow.Run | rag/agent/flow.py:22 | the driver under a step budget standing for the timeout: a started turn stays started; its meaning is given by the lemmas below |
| Workflow.RunStops | rag/agent/flow.py:22 | a run that halts (stop event, budget spent, reply missing) runs no step and changes nothing; one whose step raises ends after that step |
| Workflow.TurnStart | rag/agent/flow.py:43-68 | a turn is Initialize (no consultation) followed by the run from JudgeQuery(query) |
| Workflow.MemoryGrowsOnlyBySearch | rag/agent/flow.py:160-163 | over any run the memory keeps its old contents as a prefix and grows by exactly two messages per Search step |
| Workflow.QueryChangesOnlyByReQuery | rag/agent/flow.py:287 | within a turn the original query never changes, and the query changes only if a ReQuery step ran |
| Workflow.TurnKeepsOriginalQuery | rag/agent/flow.py:62-67 | throughout a turn the original query is the turn's query, and so is the working query unless it re-queried |
| Workflow.JudgeWithinBudget | rag/agent/flow.py:79-81 | from any point of a turn, the judge is consulted no more often than 1 minus the count, and ImproveQuery runs no more often than that (plus a pending ImproveQuery) |
| Workflow.JudgeAtMostOncePerTurn | rag/agent/flow.py:76-101 | in every turn the query judge is consulted at most once and ImproveQuery runs at most once |
| Workflow.FirstJudgeQueryConsults | rag/agent/flow.py:79-83 | a turn's first two steps are Initialize then JudgeQuery, and the first consultation is the query judge |
| Workflow.AnsweredOnlyByAnswerStep | rag/agent/flow.py:291-307 | a run that answers ended with the Answer step, whose consultation of the answering model was the last one |
| Workflow.OneRetryPass | rag/agent/flow.py:244-289 | once the judge is spent, five replies ending the verdict with "retry" take JudgeQuery, GenerateContext, Search, Judge and ReQuery, then start again at JudgeQuery with the rewrite |
| Workflow.RetryLoopUnbounded | rag/agent/flow.py:244-289 | the retry loop has no counter: for every k, replies that keep saying "retry" make k re-queries in 5k steps and the run is cut off by the budget, unanswered |
| Workflow.RetryCycleSaysRetry | rag/agent/flow.py:224-226 | a verdict reply in the documented format "retry\n<reason>" is read as "retry" |
| Workflow.RetryCycleNeverAnswers | rag/agent/flow.py:244-289 | the same for one concrete reply sequence |
| Workflow.VerdictOfFormattedReply | rag/agent/flow.py:215-234 | a reply with the choice on its first line and the reason from the second gives the choice as the verdict |
| Workflow.AgenticWorkflow.constructor | rag/agent/flow.py:18-33 | timeout 45 by default; no handles, no store, empty memory |
| Workflow.AgenticWorkflow.Initialize | rag/agent/flow.py:43-68 | the new state and event are those of StartTurn |
| Workflow.AgenticWorkflow.JudgeQuery | rag/agent/flow.py:70-101 | the new state and event are those of JudgeQueryStep |
| Workflow.AgenticWorkflow.ImproveQuery | rag/agent/flow.py:103-122 | changes nothing and emits ImproveQueryStep's event |
| Workflow.AgenticWorkflow.GenerateContext | rag/agent/flow.py:124-154 | changes nothing and emits Search with SearchQueryFor of the current memory |
| Workflow.AgenticWorkflow.Search | rag/agent/flow.py:156-167 | the new state and event are those of SearchStep |
| Workflow.AgenticWorkflow.Judge | rag/agent/flow.py:169-246 | changes nothing; the event or the raised error is JudgeStep's |
| Workflow.AgenticWorkflow.ReQuery | rag/agent/flow.py:248-289 | the new state and event are those of ReQueryStep |
| Workflow.AgenticWorkflow.Answer | rag/agent/flow.py:291-307 | changes nothing and emits the reply as the stop event |
| Workflow.AgenticWorkflow.Dispatch | rag/agent/flow.py:43-307 | routing an event to its step gives RunStep's state and event |
| Workflow.AgenticWorkflow.RunRound | rag/agent/flow.py:22-29 | one round of the run loop keeps the rest of the run equal to the run still owed |
| Workflow.AgenticWorkflow.RunTurn | rag/agent/flow.py:22-29 | driving one turn from the start event leaves the state, outcome, steps and consultations that Turn specifies |
| Retriever.StrippedNonBlank | cli/lib/rag/retriever.py:59 | the stripped lines, blank ones dropped, are no more than the lines, each non-empty and stripped |
| Retriever.StrippedNonBlankConcat | cli/lib/rag/retriever.py:59 | the filter works line by line: it distributes over concatenation |
| Retriever.StrippedNonBlankOne | cli/lib/rag/retriever.py:59 | a blank line is dropped; any other line contributes its stripped text |
| Retriever.StrippedNonBlankOfClean | cli/lib/rag/retriever.py:59 | lines that are already non-empty and stripped pass through unchanged |
| Retriever.GeneratedQueries | cli/lib/rag/retriever.py:48-65 | the queries are a prefix of the cleaned lines of the reply (backticks stripped from both ends, split on "\n", stripped, blanks dropped), exactly the first min(num_queries - 1, number of cleaned lines) of them when num_queries >= 1, each non-empty and stripped |
| Retriever.GeneratedQueriesOfListing | cli/lib/rag/retriever.py:57-65 | a reply listing clean queries one per line is read back as those queries, cut to num_queries - 1 |
| Retriever.QueryList | cli/lib/rag/retriever.py:67-71 | the original query comes first; the generated queries follow only when num_queries > 1 |
| Retriever.QueryListWithoutGeneration | cli/lib/rag/retriever.py:68-71 | with num_queries <= 1 the reply is never consulted and the list is just the original |
| Retriever.Fuse | cli/lib/rag/retriever.py:75-86 | each mode cuts its own fusion's list to top_k, the distance-based mode being relative-score fusion with dist_based set; any other mode raises ValueError |
| Retriever.FuseIsPrefix | cli/lib/rag/retriever.py:75-84 | in every valid mode the result is the first min(top_k, n) nodes of the fused list |
| Retriever.Retrieve | cli/lib/rag/retriever.py:67-86 | retrieval fails exactly for an invalid mode, and otherwise returns at most top_k nodes |
| Retriever.HybridSearchRetriever | cli/lib/rag/retriever.py:12-31 | two retrievers, vector then BM25, both at top_k, reciprocal-rank mode, `queries` queries, async |
| Retriever.HybridDefaults | cli/lib/rag/retriever.py:12-31 | with the defaults (top_k 2, 4 queries) the mode never fails, at most four queries run with the original first, and at most two nodes come back |
| Router.Inds | cli/lib/rag/engine.py:128-130 | `result.inds` lists the selections' indices in order |
| Router.SelectAll | cli/lib/rag/engine.py:176-191 | one selection per choice, the i-th with index i and reason "All"; the async form is the same |
| Router.SelectAllPicksEveryIndex | rag/lib/engine.py:100-115 | the select-all selector ignores the query and picks every position 0..n-1 in order |
| Router.FromDefaults | cli/lib/rag/engine.py:103-120 | the select-all selector exactly when no selector is given, else the given one; the given llm, else Settings.llm |
| Router.RouterDefaults | rag/lib/engine.py:80-90 | the select-all selector exactly when none is given; always multi-select; the llm passed through |
| Router.NodePostprocessors | cli/lib/rag/engine.py:33-44 | `[reranker]` exactly when a reranker is given, otherwise None (rag/lib/engine.py:32 and both chat-engine factories build the same list) |
| Router.Dispatch | cli/lib/rag/engine.py:129-138 | the lookup succeeds exactly when every picked index is in range, giving the engines in pick order; otherwise IndexError |
| Router.AskAll | cli/lib/rag/engine.py:141 | all answers in engine order exactly when every engine answers; one failure fails all |
| Router.Tag | cli/lib/rag/engine.py:160-162 | the answer's text is kept, "selector_result" holds the selection, every other key keeps its value, and no other key appears |
| Router.Route | cli/lib/rag/engine.py:122-166 | every successful answer carries the selection under "selector_result" |
| Router.RouteMultiCombines | cli/lib/rag/engine.py:128-147 | with more than one pick, each picked engine is queried once in pick order, and the answers (more than one) are always combined and tagged |
| Router.RouteFailsWithAnyEngine | cli/lib/rag/engine.py:141 | one failing engine among the picked ones fails the whole query |
| Router.RouteSelectionFailure | cli/lib/rag/engine.py:148-156 | with at most one pick, a ValueError while resolving the selection becomes "Failed to select query engine" and no engine is queried |
| Router.RouteSingle | cli/lib/rag/engine.py:148-158 | with at most one pick, only the engine at `result.ind` is queried and its answer is tagged |
| Router.DefaultRouterQueriesAll | cli/lib/rag/engine.py:112-138 | a router with the default selector queries each of its engines once, in order; with a single engine this holds when the selection names index 0 |
| Router.LookUpEngines | cli/lib/rag/engine.py:129-138 | the task loop yields exactly Dispatch's lookup |
| Router.AskInTurn | cli/lib/rag/engine.py:141 | the awaited answers are exactly AskAll's |
| Router.AQuery | cli/lib/rag/engine.py:122-166 | `_aquery` returns Route's answer and queries exactly the engines Queried names |
| ParallelSearch.AnswerAll | rag/lib/engines/parallel_rag_search_engine.py:16-22 | one answer per engine, in engine order, each that engine's answer to the query |
| ParallelSearch.ResponseLinesFrom | rag/lib/engines/parallel_rag_search_engine.py:40 | line i is "Response i: " and the i-th answer |
| ParallelSearch.ResponseListingLines | rag/lib/engines/parallel_rag_search_engine.py:34-45 | when no answer holds a line break, the listing has exactly one line per answer, in order, the i-th numbered i |
| ParallelSearch.PickAnswer | rag/lib/engines/parallel_rag_search_engine.py:47-56 | it fails (IndexError) exactly with no answers; an integer reply k with -n <= k < n picks `responses[k]`; any other reply picks the first; the pick is always one of the answers |
| ParallelSearch.PickByNumber | rag/lib/engines/parallel_rag_search_engine.py:50-52 | the reply str(i) picks the i-th answer (i of at most 4300 digits) |
| ParallelSearch.PickFromEnd | rag/lib/engines/parallel_rag_search_engine.py:50-52 | the reply "-k" picks the k-th answer from the end (k of at most 4300 digits) |
| ParallelSearch.PickWithoutNumber | rag/lib/engines/parallel_rag_search_engine.py:53-54 | a reply with no digit picks the first answer |
| ParallelSearch.PickOverlongNumber | rag/lib/engines/parallel_rag_search_engine.py:50-54 | a reply of more than 4300 digits picks the first answer, even when its value is a valid position |
| ParallelSearch.PickWithSeparator | rag/lib/engines/parallel_rag_search_engine.py:50-54 | a reply holding any of U+001C..U+001F picks the first answer, whatever number it also holds |
| ParallelSearch.Select | rag/lib/engines/parallel_rag_search_engine.py:24-32 | `select`/`aselect` fail exactly with no answers and otherwise pick one of them |
| ParallelSearch.Search | rag/lib/engines/parallel_rag_search_engine.py:16-22 | the result fails exactly with no engines, and is otherwise one engine's answer to the query |
| PdfParser.ParseImage | rag/lib/readers/parsers/pdf_parser.py:120-125 | a stripped local OCR text shorter than 10 is returned; otherwise the remote answer, or "" when there is none |
| PdfParser.ImagesOcrConcat | rag/lib/readers/parsers/pdf_parser.py:69-72 | the OCR of consecutive runs of images concatenates |
| PdfParser.PageString | rag/lib/readers/parsers/pdf_parser.py:67-82 | the page starts with its extracted text, followed by the images' OCR in order; the whole page is OCRed only when both are empty |
| PdfParser.MetaIndex | rag/lib/readers/parsers/pdf_parser.py:66 | `min(i, len)` is at most len, and equals i exactly when i <= len |
| PdfParser.Pages | rag/lib/readers/parsers/pdf_parser.py:61-83 | one page string per page, in order, when the image view has enough pages; otherwise IndexError |
| PdfParser.WithExtra | rag/lib/readers/parsers/pdf_parser.py:89-90 | `extra_info` keys are added and override; other keys are kept |
| PdfParser.Documents | rag/lib/readers/parsers/pdf_parser.py:85-106 | full: one Document of the pages joined by "\n" with the file name (extra overriding); otherwise one Document per page, in order, labelled i+1 with the file name (extra overriding) |
| PdfParser.PageLabel | rag/lib/readers/parsers/pdf_parser.py:100-106 | page i's label parses back to i+1 (for i+1 of at most 4300 digits), and its file name is the file's, unless extra_info overrides them |
| PdfParser.FullDocumentLines | rag/lib/readers/parsers/pdf_parser.py:87-94 | the single Document splits back into its pages when no page holds a line break |
| PdfParser.LoadOnce | rag/lib/readers/parsers/pdf_parser.py:32-108 | one attempt fails exactly when the image view is short; otherwise it gives one Document per page, or one in all when full |
| PdfParser.Load | rag/lib/readers/parsers/pdf_parser.py:31 | under the retry decorator, a failure surfaces as RetryError carrying the IndexError; success is the attempt's result |
| PdfParser.PdfParser.constructor | rag/lib/readers/parsers/pdf_parser.py:22-29 | `return_full_document` defaults to false |
| PdfParser.PdfParser.PageText | rag/lib/readers/parsers/pdf_parser.py:67-82 | the `page_ocr +=` loop and its fallback build exactly PageString |
| PdfParser.PdfParser.ReadPages | rag/lib/readers/parsers/pdf_parser.py:61-83 | the page loop builds exactly Pages |
| PdfParser.PdfParser.BuildDocuments | rag/lib/readers/parsers/pdf_parser.py:85-106 | the Document loop builds exactly Documents for this parser's setting |
| PdfParser.PdfParser.LoadDataOnce | rag/lib/readers/parsers/pdf_parser.py:32-108 | one attempt of `load_data` is exactly LoadOnce |
| PdfParser.PdfParser.LoadData | rag/lib/readers/parsers/pdf_parser.py:31-108 | `load_data` with its decorator is exactly Load |
| IndexSetup.NewSentenceSplitter | cli/lib/rag/index.py:17 | the splitter is built exactly when 0 < chunk_size and 0 <= chunk_overlap <= chunk_size, otherwise ValueError |
| IndexSetup.DefaultSplitter | cli/lib/rag/index.py:11-17 | chunk size kept; an absent or zero overlap becomes chunk_size // 8, which succeeds exactly for a positive chunk size; any other overlap is kept and succeeds exactly when 0 < chunk_size and it lies in 0..chunk_size; every failure is ValueError |
| IndexSetup.OverlapLargerThanChunkRaises | cli/lib/rag/index.py:11-17 | an explicit overlap larger than the chunk size raises ValueError, as `default_splitter(100, 200)` does |
| IndexSetup.DefaultSplitterDefaults | cli/lib/rag/index.py:11-17 | with no arguments: 256-character chunks overlapping by 32, which the splitter accepts; overlap 0 is the same as none |
| IndexSetup.ReadIndex | cli/lib/rag/index.py:29-34 | None exactly when reading fails, otherwise the stored index |
| IndexSetup.CreateIndex | cli/lib/rag/index.py:37-50 | the reader's documents, with the splitter as the only transformation when given, none otherwise |
| IndexSetup.LoadIndex | cli/lib/rag/index.py:20-26 | an index is created exactly when none can be read; otherwise the stored one |
| Indexes.VectorIndex.constructor | cli/lib/rag/indexes/vector_memory_index_manager.py:55-60 | an index built from the documents with the transformations |
| Indexes.VectorIndex.Insert | rag/lib/types.py:27 | `insert` appends exactly that document |
| Indexes.BaseIndexManager.constructor | rag/lib/types.py:16-18 | no cached index |
| Indexes.BaseIndexManager.LoadIndex | rag/lib/types.py:20-23 | loads only when nothing is cached, then keeps and returns the cache; repeated calls do not reload |
| Indexes.BaseIndexManager.AddDocument | rag/lib/types.py:25-27 | loads if need be, then the index gains exactly that document; a loaded index other than the passed one leaves the passed one untouched |
| Indexes.BaseIndexManager.AddDocuments | rag/lib/types.py:29-31 | each document once, in order; an empty list changes nothing and loads nothing; a loaded index other than the passed one leaves the passed one untouched |
| Indexes.VectorMemoryIndexManager.constructor | cli/lib/rag/indexes/vector_memory_index_manager.py:13-17 | the default splitter, no index, not tracking, so `has_data()` is None |
| Indexes.VectorMemoryIndexManager.HasData | cli/lib/rag/indexes/vector_memory_index_manager.py:35-39 | None exactly when not tracking; otherwise whether any document is tracked |
| Indexes.VectorMemoryIndexManager.LoadFromStorage | cli/lib/rag/indexes/vector_memory_index_manager.py:41-53 | a successful storage load leaves tracking alone; a failed one starts tracking an empty list and builds an empty index with the splitter |
| Indexes.VectorMemoryIndexManager.LoadIndex | rag/lib/types.py:20-23 | the inherited lazy load over this manager's storage load: cached index kept, otherwise one fresh load |
| Indexes.VectorMemoryIndexManager.AddDocument | cli/lib/rag/indexes/vector_memory_index_manager.py:19-23 | loads once if no index is loaded, inserts, persists the index's contents, and appends the document to the tracked list only while tracking |
| Indexes.VectorMemoryIndexManager.AddDocuments | rag/lib/types.py:29-31 | the inherited loop over this manager's `add_document`: an empty list changes nothing; otherwise one load at most, the index gains the documents in order, its contents are persisted, the tracked list grows by them while tracking, and after a failed first load `has_data()` is True |
| Indexes.VectorMemoryIndexManager.CreateIndex | cli/lib/rag/indexes/vector_memory_index_manager.py:25-33 | a missing persist directory raises FileNotFoundError before anything changes; otherwise a fresh index of the documents with the splitter, persisted, and the documents become the tracked list, so `has_data()` is len > 0 |
| Indexes.TrackingFollowsFirstLoad | cli/lib/rag/indexes/vector_memory_index_manager.py:41-53 | after two additions, `has_data()` is None when storage loaded and True when it failed |
| Readers.ReaderName | rag/lib/reader.py:11 | the name has no "/", ends the directory, is the whole directory without a "/" and "" after a trailing "/" |
| Readers.LastPieceCases | rag/lib/reader.py:11 | `split("/")[-1]` is the whole string without a "/" and "" after a trailing one |
| Readers.LastPieceSeparated | rag/lib/reader.py:11 | the last piece is the whole string or is preceded by the separator |
| Readers.ReaderNameAfterSlash | rag/lib/reader.py:11 | the name of `prefix/name` is `name`, whatever the prefix |
| Readers.MergeExtractors | cli/lib/rag/readers/generic_reader.py:12-34 | ".pdf" is always the class's own PDF parser; the other caller keys keep their extractors; None is treated as empty |
| Readers.DocumentReader.constructor | rag/lib/reader.py:7-11 | the name from the directory, the class defaulting to SimpleDirectoryReader, no documents and no reader |
| Readers.DocumentReader.LoadDocuments | rag/lib/reader.py:16-20 | the underlying reader is built at most once, over the directory with the configured class; the documents are overwritten by the load |
| Readers.DocumentReader.ReadDocuments | rag/lib/reader.py:13-14 | a non-empty cache is returned and nothing changes; None or an empty list loads |
| Readers.GenericReader.constructor | cli/lib/rag/readers/generic_reader.py:16-52 | the merged extractor map and no documents |
| Readers.GenericReader.Read | cli/lib/rag/readers/generic_reader.py:54-56 | stores the load and returns it |
| Readers.GenericReader.GetDocuments | cli/lib/rag/readers/generic_reader.py:58-59 | a non-empty cache is returned without loading; otherwise `read` |
| Readers.ReadTwice | cli/lib/rag/readers/generic_reader.py:58-59 | a reader whose first load is non-empty gives that same list on the next call; only an empty first load is replaced |

## Left out

- IndexSetup.NewSentenceSplitter: llama_index's `SentenceSplitter` is not part of this model. Its argument check is taken to be: overlap larger than chunk size, chunk size not positive, or overlap negative raise ValueError. The messages stand in for llama_index's. Every caller in the repository uses the defaults, which pass.
- LLM and engine calls: every `achat`, `acomplete`, `complete` and `aquery` reply is an input string. The prompt wording is not modelled, including the answer count in the parallel engine's prompt. The one exception is the parallel engine's numbered listing of answers.
- The workflow's conversation memory is an append-only sequence written only by `search`. `generate_context` and `answer` go through a chat engine that shares that memory, and it records its own exchanges there. That side effect lives inside llama_index and is not modelled. Neither is ChatMemoryBuffer's token-limit eviction.
- Framework plumbing in the workflow is not modelled: the context store of `llm`, `engine` and the chat engines, and the `print` calls. The only trace of the plumbing is the `handlesReady` flag. The first reply of `re_query` is consumed but only feeds the second prompt.
- The workflow timeout (wall-clock seconds) is modelled as a step budget (`fuel`). A run cut off by the budget ends as TimedOut.
- `asyncio.gather` in the router and the concurrent query runner of the retriever are modelled as in-order maps. Which failure surfaces first when several engines fail is taken to be the first in order.
- The fusion scorings, `_run_async_queries`, `acombine_responses` and the selector's `MultiSelection.ind`/`inds` are parameters or plain functions. `result.ind` is the parameter `single`.
- The one-response branch at cli/lib/rag/engine.py:146-147 cannot be reached. The model has no such branch, and RouteMultiCombines proves that it is never needed.
- Persistence and the filesystem are not modelled: `persist`, `shutil.rmtree`, `os.makedirs`, `StorageContext` and `load_index_from_storage`. They appear only as outcomes given as inputs: what storage holds, whether it fails, and whether the persist directory exists.
- Index truthiness (`if not self._index`, `read_index(...) or ...`) is read as "not None". An index object is assumed never to be falsy.
- cli/lib/rag/types.py is not part of this model. `VectorMemoryIndexManager` is taken to inherit the behaviour of rag/lib/types.py.
- In `create_index` the manager keeps the caller's list object as its tracked list, so later appends are visible to the caller. Lists are values here, so that aliasing is not modelled.
- The PDF and OCR machinery is not modelled: pdfplumber and pymupdf extraction, image extraction, pytesseract, the remote vision model and image saving. Per-page texts, image lists and OCR results are inputs.
- PdfParser.Load: the three-attempt retry is modelled as one attempt whose failure is wrapped in RetryError. With the same inputs every attempt fails the same way, so this loses nothing.
- The metadata dicts updated in place in the PDF parser are modelled as map values.
- The class-level PDF parser instance is shared by every GenericReader. It is stateless here, so the sharing is not modelled. What the underlying directory reader loads is an input.
- cli/lib/rag/reader.py, which cli/lib/rag/index.py imports, is not part of this model. rag/lib/reader.py's DocumentReader is modelled in its place.
- PdfParser.Documents: does not model the ValueError `str(i + 1)` raises for a page number of more than 4300 digits, a page count no PDF reaches.
- PdfParser.PageLabel: holds for page numbers of at most 4300 digits, the ones `str` renders.
- `int()` also accepts non-ASCII decimal digits. ParseInt accepts ASCII digits only. The digit limit is Python's default of 4300; `sys.set_int_max_str_digits` is not modelled. The whitespace it ignores around the number is `isspace()` without U+001C..U+001F, as `int()` does.
- The UI, CLI, evaluation, debugger and environment-setup files are not modelled. Neither are the thin wrappers over llama_index, which have no logic of their own.
- Workflow.Run: its own contract says only that a started turn stays started. What a run does is stated by RunStops, TurnStart and the lemmas that follow them.
- Router.Route: its own contract states only the metadata tag. The routing itself is stated by RouteMultiCombines, RouteFailsWithAnyEngine, RouteSelectionFailure and RouteSingle.
- Retriever.Retrieve: the query runner and the scorings are parameters, so its contract states only the failure condition and the top_k bound. Fuse and QueryList state the rest.
- PdfParser.LoadOnce: its contract states the failure condition and the counts. The contents are stated by Pages and Documents.

=== FILE: common.dfy ===
/**
 * Value wrappers shared by the whole model: an optional value (Python's `None`
 * or a value), the exceptions the modelled code raises, and a result that is
 * either a value or a raised exception.
 */
module Common {

  datatype Option<+T> = None | Some(value: T) {
    /** Python's `x or default` for a value that is falsy only when it is None. */
    function GetOr(default: T): T {
      match this
      case Some(v) => v
      case None => default
    }
  }

  /**
   * The Python exception classes that the modelled code can raise;
   * `RetryError` is what a retrying decorator raises once its attempts are
   * used up, carrying the last attempt's exception.
   */
  datatype Exception =
    | ValueError(message: string)
    | IndexError(message: string)
    | FileNotFoundError(path: string)
    | RetryError(last: Exception)

  /** A llama_index Document: its text and its string metadata. */
  datatype Document = Document(text: string, metadata: map<string, string>)

  datatype Result<+T> = Ok(value: T) | Err(error: Exception)

  /**
   * Python's `xs[k]` on a list: negative k counts from the end, anything
   * outside -|xs| <= k < |xs| raises IndexError.
   */
  function PyIndex<T>(xs: seq<T>, k: int): (r: Result<T>)
    ensures r.Ok? <==> -|xs| <= k < |xs|
    ensures r.Ok? && k >= 0 ==> r.value == xs[k]
    ensures r.Ok? && k < 0 ==> r.value == xs[|xs| + k]
  {
    if 0 <= k < |xs| then Ok(xs[k])
    else if -|xs| <= k < 0 then Ok(xs[|xs| + k])
    else Err(IndexError("list index out of range"))
  }

  /** How many times `x` occurs in `xs` (Python's `xs.count(x)`). */
  function Count<T(==)>(xs: seq<T>, x: T): nat {
    if xs == [] then 0 else (if xs[0] == x then 1 else 0) + Count(xs[1..], x)
  }

  lemma {:induction false} CountConcat<T>(a: seq<T>, b: seq<T>, x: T)
    ensures Count(a + b, x) == Count(a, x) + Count(b, x)
  {
    if a == [] {
      assert a + b == b;
    } else {
      assert (a + b)[0] == a[0];
      assert (a + b)[1..] == a[1..] + b;
      CountConcat(a[1..], b, x);
    }
  }

  /**
   * Python's `xs[:k]`: a negative bound counts from the end, a bound past the
   * end stops at the end.
   */
  function PyPrefix<T>(xs: seq<T>, k: int): (r: seq<T>)
    ensures |r| <= |xs| && r == xs[..|r|]
    ensures k >= 0 ==> |r| == if k < |xs| then k else |xs|
    ensures k < 0 ==> |r| == if |xs| + k > 0 then |xs| + k else 0
  {
    if k >= 0 then (if k < |xs| then xs[..k] else xs)
    else (if |xs| + k > 0 then xs[..|xs| + k] else [])
  }
}

=== FILE: index_setup.dfy ===
/**
 * The index helpers of cli/lib/rag/index.py: the default sentence splitter,
 * reading a stored index without raising, and building an index only when
 * none can be read. Storage and embedding are outcomes given as inputs; an
 * index is described by what it was built from.
 */
module IndexSetup {
  import opened Common

  /** A llama_index `SentenceSplitter`: chunk size and chunk overlap. */
  datatype Splitter = SentenceSplitter(chunkSize: int, chunkOverlap: int)

  /** An index as built by `VectorStoreIndex.from_documents`: its documents and transformations. */
  datatype IndexPlan = IndexPlan(documents: seq<Document>, transformations: seq<Splitter>)

  /** Where `load_index`'s index came from. */
  datatype Loaded = FromStorage(stored: IndexPlan) | Created(created: IndexPlan)

  /** The chunk size `default_splitter` uses when called without arguments. */
  const DefaultChunkSize: int := 256

  /**
   * `SentenceSplitter(chunk_size=…, chunk_overlap=…)`: an overlap larger
   * than the chunk size raises ValueError, and so do a chunk size that is
   * not positive and a negative overlap (the constructor's field checks,
   * whose ValidationError is a ValueError).
   */
  function NewSentenceSplitter(chunkSize: int, chunkOverlap: int): (r: Result<Splitter>)
    ensures r.Ok? <==> 0 < chunkSize && 0 <= chunkOverlap <= chunkSize
    ensures r.Ok? ==> r.value == SentenceSplitter(chunkSize, chunkOverlap)
    ensures r.Err? ==> r.error.ValueError?
  {
    if chunkOverlap > chunkSize then
      Err(ValueError("Got a larger chunk overlap than chunk size, should be smaller."))
    else if chunkSize <= 0 || chunkOverlap < 0 then
      Err(ValueError("validation error for SentenceSplitter"))
    else Ok(SentenceSplitter(chunkSize, chunkOverlap))
  }

  /**
   * `default_splitter`: an absent or zero overlap becomes `chunk_size // 8`
   * (floor division by 8, which Dafny's `/` agrees with for a positive
   * divisor); any other overlap is kept; then the splitter checks its
   * arguments.
   */
  function DefaultSplitter(chunkSize: int, chunkOverlap: Option<int>): (r: Result<Splitter>)
    ensures r.Ok? ==> r.value.chunkSize == chunkSize && 0 <= r.value.chunkOverlap <= chunkSize
    ensures r.Err? ==> r.error.ValueError?
    ensures chunkOverlap.None? || chunkOverlap.value == 0 ==>
      (r.Ok? <==> chunkSize > 0)
      && (r.Ok? ==> 8 * r.value.chunkOverlap <= chunkSize < 8 * r.value.chunkOverlap + 8)
    ensures chunkOverlap.Some? && chunkOverlap.value != 0 ==>
      (r.Ok? <==> 0 < chunkSize && 0 <= chunkOverlap.value <= chunkSize)
      && (r.Ok? ==> r.value.chunkOverlap == chunkOverlap.value)
  {
    var overlap := if chunkOverlap.None? || chunkOverlap.value == 0 then chunkSize / 8 else chunkOverlap.value;
    NewSentenceSplitter(chunkSize, overlap)
  }

  /** Called without arguments, the splitter cuts 256-character chunks overlapping by 32. */
  lemma DefaultSplitterDefaults()
    ensures DefaultSplitter(DefaultChunkSize, None) == Ok(SentenceSplitter(256, 32))
    ensures DefaultSplitter(DefaultChunkSize, Some(0)) == DefaultSplitter(DefaultChunkSize, None)
  {
  }

  /** An overlap larger than the chunk size is refused: `default_splitter(100, 200)` raises. */
  lemma OverlapLargerThanChunkRaises(chunkSize: int, chunkOverlap: int)
    requires chunkOverlap > chunkSize && chunkOverlap != 0
    ensures DefaultSplitter(chunkSize, Some(chunkOverlap)).Err?
    ensures DefaultSplitter(chunkSize, Some(chunkOverlap)).error.ValueError?
  {
  }

  /** `read_index`: the stored index, or None instead of any exception. */
  function ReadIndex(stored: Result<IndexPlan>): (r: Option<IndexPlan>)
    ensures r.None? <==> stored.Err?
    ensures r.Some? ==> r.value == stored.value
  {
    match stored
    case Ok(plan) => Some(plan)
    case Err(_) => None
  }

  /** `create_index`'s transformations: the splitter alone when one is given, otherwise none. */
  function CreateIndex(documents: seq<Document>, splitter: Option<Splitter>): (r: IndexPlan)
    ensures r.documents == documents
    ensures |r.transformations| <= 1
    ensures r.transformations != [] <==> splitter.Some?
    ensures splitter.Some? ==> r.transformations[0] == splitter.value
  {
    IndexPlan(documents, if splitter.Some? then [splitter.value] else [])
  }

  /**
   * `load_index`: `read_index(storage) or create_index(...)`, so the reader's
   * documents are indexed only when no stored index can be read.
   */
  function LoadIndex(stored: Result<IndexPlan>, documents: seq<Document>, splitter: Option<Splitter>): (r: Loaded)
    ensures r.Created? <==> stored.Err?
    ensures r.FromStorage? ==> r.stored == stored.value
    ensures r.Created? ==> r.created == CreateIndex(documents, splitter)
  {
    match ReadIndex(stored)
    case Some(plan) => FromStorage(plan)
    case None => Created(CreateIndex(documents, splitter))
  }
}

=== FILE: indexes.dfy ===
/**
 * The index managers: the lazy index cache of `BaseIndexManager`
 * (rag/lib/types.py) and the in-memory vector index manager
 * (cli/lib/rag/indexes/vector_memory_index_manager.py), which additionally
 * tracks the documents it was given so that it can say whether it holds any.
 * The subclass's base, cli/lib/rag/types.py, is not part of this model; it is
 * taken to be the same as rag/lib/types.py. Storage outcomes are inputs.
 */
module Indexes {
  import opened Common
  import opened IndexSetup

  /** A vector index: the documents inserted into it and the transformations it was built with. */
  class VectorIndex {
    var documents: seq<Document>
    const transformations: seq<Splitter>

    constructor (documents: seq<Document>, transformations: seq<Splitter>)
      ensures this.documents == documents && this.transformations == transformations
    {
      this.documents := documents;
      this.transformations := transformations;
    }

    /** `index.insert(document)`. */
    method Insert(document: Document)
      modifies this
      ensures documents == old(documents) + [document]
    {
      documents := documents + [document];
    }
  }

  /**
   * `BaseIndexManager`: `index` is the cached `_index` (null for None); the
   * ghost `loads` counts calls of `_load_index`, whose result is passed in
   * as `loaded`.
   */
  class BaseIndexManager {
    var index: VectorIndex?
    ghost var loads: nat

    /** A new manager has no cached index. */
    constructor ()
      ensures index == null && loads == 0
    {
      index := null;
      loads := 0;
    }

    /** The index an operation will work on: the cached one, or the one a load would give. */
    function Target(loaded: VectorIndex): VectorIndex
      reads this
    {
      if index != null then index else loaded
    }

    /** `load_index`: load only when nothing is cached, then keep and return what is cached. */
    method LoadIndex(loaded: VectorIndex) returns (idx: VectorIndex)
      modifies this
      ensures idx == index == old(Target(loaded))
      ensures loads == old(loads) + (if old(index) == null then 1 else 0)
    {
      if index == null {
        index := loaded;
        loads := loads + 1;
      }
      idx := index;
    }

    /** `add_document`: make sure the index is loaded, then insert exactly that document. */
    method AddDocument(document: Document, loaded: VectorIndex)
      modifies this, loaded, index
      ensures index == old(Target(loaded))
      ensures index.documents == old(Target(loaded).documents) + [document]
      ensures loads == old(loads) + (if old(index) == null then 1 else 0)
      ensures old(index) != null && loaded != old(index) ==> loaded.documents == old(loaded.documents)
    {
      var idx := LoadIndex(loaded);
      idx.Insert(document);
    }

    /**
     * `add_documents`: every document once, in list order; an empty list
     * changes nothing and loads nothing.
     */
    method AddDocuments(documents: seq<Document>, loaded: VectorIndex)
      modifies this, loaded, index
      ensures documents == [] ==> index == old(index) && loads == old(loads)
      ensures documents != [] ==> (index == old(Target(loaded))
        && index.documents == old(Target(loaded).documents) + documents
        && loads == old(loads) + (if old(index) == null then 1 else 0))
      ensures old(index) != null && loaded != old(index) ==> loaded.documents == old(loaded.documents)
    {
      ghost var target := Target(loaded);
      ghost var before := target.documents;
      var i := 0;
      while i < |documents|
        invariant 0 <= i <= |documents|
        invariant i == 0 ==> index == old(index) && loads == old(loads) && target.documents == before
        invariant i > 0 ==> (index == target && target.documents == before + documents[..i]
          && loads == old(loads) + (if old(index) == null then 1 else 0))
        invariant index == null || index == target
        invariant Target(loaded) == target
        invariant old(index) != null && loaded != old(index) ==> loaded.documents == old(loaded.documents)
      {
        assert documents[..i + 1] == documents[..i] + [documents[i]];
        AddDocument(documents[i], loaded);
        i := i + 1;
      }
      assert documents[..i] == documents;
    }
  }

  /**
   * `VectorMemoryIndexManager`: `documents` is `_documents` (None while not
   * tracking) and `persisted` is what the last `_persist` wrote under the
   * persist directory.
   */
  class VectorMemoryIndexManager {
    const persistDir: string
    const splitter: Splitter
    var index: VectorIndex?
    var documents: Option<seq<Document>>
    var persisted: Option<seq<Document>>
    ghost var loads: nat

    /** A new manager: the default splitter, no index, not tracking. */
    constructor (persistDir: string)
      ensures this.persistDir == persistDir && DefaultSplitter(DefaultChunkSize, None) == Ok(splitter)
      ensures index == null && documents == None && persisted == None && loads == 0
      ensures HasData() == None
    {
      this.persistDir := persistDir;
      DefaultSplitterDefaults();
      splitter := DefaultSplitter(DefaultChunkSize, None).value;
      index := null;
      documents := None;
      persisted := None;
      loads := 0;
    }

    /** `has_data`: None while not tracking, otherwise whether any document is tracked. */
    function HasData(): (r: Option<bool>)
      reads this
      ensures r.None? <==> documents.None?
      ensures r.Some? ==> (r.value <==> |documents.value| > 0)
    {
      if documents.None? then None else Some(|documents.value| > 0)
    }

    /** What `_documents` is once a load with storage outcome `stored` has happened. */
    function TrackedAfterLoad(stored: Option<seq<Document>>): Option<seq<Document>>
      reads this
    {
      if index == null && stored.None? then Some([]) else documents
    }

    /**
     * `_load_index`: `stored` is what `load_index_from_storage` yields, None
     * when it raises. On failure tracking starts with an empty list and the
     * index is built from it with the splitter.
     */
    method LoadFromStorage(stored: Option<seq<Document>>) returns (idx: VectorIndex)
      modifies this
      ensures fresh(idx)
      ensures stored.Some? ==> idx.documents == stored.value && documents == old(documents)
      ensures stored.None? ==> idx.documents == [] && idx.transformations == [splitter] && documents == Some([])
      ensures index == old(index) && persisted == old(persisted) && loads == old(loads)
    {
      if stored.Some? {
        idx := new VectorIndex(stored.value, []);
      } else {
        documents := Some([]);
        idx := new VectorIndex([], [splitter]);
      }
    }

    /** The inherited `load_index`, over this manager's `_load_index`. */
    method LoadIndex(stored: Option<seq<Document>>) returns (idx: VectorIndex)
      modifies this
      ensures index == idx && persisted == old(persisted)
      ensures documents == old(TrackedAfterLoad(stored))
      ensures old(index) != null ==> idx == old(index) && loads == old(loads)
      ensures old(index) == null ==> (fresh(idx) && loads == old(loads) + 1
        && idx.documents == (if stored.Some? then stored.value else []))
    {
      if index == null {
        idx := LoadFromStorage(stored);
        index := idx;
        loads := loads + 1;
      }
      idx := index;
    }

    /**
     * `add_document`: insert (loading first if need be), persist, and append
     * to the tracked documents only while tracking.
     */
    method AddDocument(document: Document, stored: Option<seq<Document>>)
      modifies this, index
      ensures index != null && persisted == Some(index.documents)
      ensures loads == old(loads) + (if old(index) == null then 1 else 0)
      ensures old(index) != null ==> index == old(index) && index.documents == old(index.documents) + [document]
      ensures old(index) == null ==> (fresh(index)
        && index.documents == (if stored.Some? then stored.value else []) + [document])
      ensures var tracked := old(TrackedAfterLoad(stored));
        documents == if tracked.Some? then Some(tracked.value + [document]) else None
    {
      var idx := LoadIndex(stored);
      idx.Insert(document);
      persisted := Some(idx.documents);
      if documents.Some? {
        documents := Some(documents.value + [document]);
      }
    }

    /** The documents the index holds once a load with storage outcome `stored` has happened. */
    function LoadedDocuments(stored: Option<seq<Document>>): seq<Document>
      reads this, index
    {
      if index != null then index.documents else if stored.Some? then stored.value else []
    }

    /**
     * The inherited `add_documents`, over this manager's `add_document`:
     * every document once, in order, each persisted and tracked while
     * tracking; an empty list changes nothing and loads nothing.
     */
    method AddDocuments(docs: seq<Document>, stored: Option<seq<Document>>)
      modifies this, index
      ensures docs == [] ==> (index == old(index) && documents == old(documents)
        && persisted == old(persisted) && loads == old(loads))
      ensures docs != [] ==> (index != null && persisted == Some(index.documents)
        && index.documents == old(LoadedDocuments(stored)) + docs
        && loads == old(loads) + (if old(index) == null then 1 else 0))
      ensures docs != [] ==> var tracked := old(TrackedAfterLoad(stored));
        documents == if tracked.Some? then Some(tracked.value + docs) else None
      ensures docs != [] && old(index) == null && stored.None? ==> HasData() == Some(true)
    {
      ghost var base := LoadedDocuments(stored);
      ghost var tracked := TrackedAfterLoad(stored);
      var i := 0;
      while i < |docs|
        invariant 0 <= i <= |docs|
        invariant i == 0 ==> (index == old(index) && documents == old(documents)
          && persisted == old(persisted) && loads == old(loads)
          && LoadedDocuments(stored) == base && TrackedAfterLoad(stored) == tracked)
        invariant old(index) != null ==> index == old(index)
        invariant old(index) == null && index != null ==> fresh(index)
        invariant i > 0 ==> (index != null && persisted == Some(index.documents)
          && index.documents == base + docs[..i]
          && loads == old(loads) + (if old(index) == null then 1 else 0)
          && documents == if tracked.Some? then Some(tracked.value + docs[..i]) else None)
      {
        assert docs[..i + 1] == docs[..i] + [docs[i]];
        assert tracked.Some? ==> tracked.value + docs[..i + 1] == (tracked.value + docs[..i]) + [docs[i]];
        assert tracked.Some? ==> tracked.value + docs[..0] == tracked.value;
        AddDocument(docs[i], stored);
        i := i + 1;
      }
      assert docs[..i] == docs;
    }

    /**
     * `create_index`: the persist directory is removed (FileNotFoundError
     * when it does not exist, before anything changes) and recreated, the
     * index is built from `docs` with the splitter and persisted, and `docs`
     * becomes the tracked list.
     */
    method CreateIndex(docs: seq<Document>, dirExists: bool) returns (r: Result<VectorIndex>)
      modifies this
      ensures !dirExists ==> (r == Err(FileNotFoundError(persistDir))
        && index == old(index) && documents == old(documents) && persisted == old(persisted))
      ensures dirExists ==> (r.Ok? && fresh(r.value) && index == r.value
        && r.value.documents == docs && r.value.transformations == [splitter]
        && documents == Some(docs) && persisted == Some(docs))
      ensures dirExists ==> HasData() == Some(|docs| > 0)
      ensures loads == old(loads)
    {
      if !dirExists {
        return Err(FileNotFoundError(persistDir));
      }
      persisted := None;
      var idx := new VectorIndex(docs, [splitter]);
      index := idx;
      persisted := Some(idx.documents);
      documents := Some(docs);
      r := Ok(idx);
    }
  }

  /**
   * Tracking follows the storage outcome of the first load: a manager whose
   * storage loads adds documents without ever tracking them, one whose
   * storage fails tracks exactly the documents added since.
   */
  method TrackingFollowsFirstLoad(persistDir: string, d1: Document, d2: Document, stored: Option<seq<Document>>)
    returns (hasData: Option<bool>)
    ensures stored.Some? ==> hasData == None
    ensures stored.None? ==> hasData == Some(true)
  {
    var manager := new VectorMemoryIndexManager(persistDir);
    assert manager.index == null && manager.documents == None;
    assert stored.None? ==> manager.TrackedAfterLoad(stored) == Some([]);
    manager.AddDocument(d1, stored);
    assert stored.None? ==> manager.documents.Some? && manager.documents.value == [d1];
    manager.AddDocument(d2, stored);
    hasData := manager.HasData();
    assert stored.None? ==> manager.documents.Some? && manager.documents.value == [d1, d2];
  }
}

=== FILE: parallel_search.dfy ===
/**
 * The parallel search engine (rag/lib/engines/parallel_rag_search_engine.py):
 * every strategy answers the query, an LLM is shown the numbered answers and
 * replies with the number of the best one, and the reply is read as a Python
 * list index into the answers, falling back to the first answer.
 */
module ParallelSearch {
  import opened Common
  import opened Text

  /**
   * `[e.search(query) for e in self.engines]` (and the awaited form in
   * `asearch`, which asks the engines one after another): one answer per
   * engine, in engine order.
   */
  function AnswerAll<E, R>(engines: seq<E>, query: string, ask: (E, string) -> R): (rs: seq<R>)
    ensures |rs| == |engines|
    ensures forall i :: 0 <= i < |engines| ==> rs[i] == ask(engines[i], query)
  {
    if engines == [] then [] else [ask(engines[0], query)] + AnswerAll(engines[1..], query, ask)
  }

  /** The line `Response {i}: {response}` of the selection prompt. */
  function ResponseLine(i: nat, rendered: string): string {
    "Response " + NatToString(i) + ": " + rendered
  }

  /** The numbered lines of the selection prompt, from index `start` on. */
  function ResponseLinesFrom(start: nat, rendered: seq<string>): (lines: seq<string>)
    ensures |lines| == |rendered|
    ensures forall i :: 0 <= i < |rendered| ==> lines[i] == ResponseLine(start + i, rendered[i])
    decreases |rendered|
  {
    if rendered == [] then [] else [ResponseLine(start, rendered[0])] + ResponseLinesFrom(start + 1, rendered[1..])
  }

  /**
   * The listing in `_select_prompt`: the answers' texts joined by "\n", the
   * i-th prefixed with "Response i: ".
   */
  function ResponseListing(rendered: seq<string>): string {
    Join(ResponseLinesFrom(0, rendered), "\n")
  }

  /**
   * When no answer text holds a line break, the listing has exactly one line
   * per answer, in order, the i-th numbered i.
   */
  lemma ResponseListingLines(rendered: seq<string>)
    requires |rendered| >= 1
    requires forall i :: 0 <= i < |rendered| ==> '\n' !in rendered[i]
    ensures var lines := Split(ResponseListing(rendered), '\n');
      |lines| == |rendered| && forall i :: 0 <= i < |rendered| ==> lines[i] == ResponseLine(i, rendered[i])
  {
    var lines := ResponseLinesFrom(0, rendered);
    forall i | 0 <= i < |lines|
      ensures '\n' !in lines[i]
    {
      var digits := NatToString(i);
      assert forall j :: 0 <= j < |digits| ==> digits[j] != '\n';
      assert lines[i] == "Response " + digits + ": " + rendered[i];
    }
    SplitJoin(lines, '\n');
  }

  /**
   * `_pick_answer`: `int(str(choice))` indexes the answers with Python's list
   * semantics (a negative number counts from the end); a reply that is not an
   * integer, or an index out of range, falls back to the first answer, and
   * with no answers at all the fallback raises IndexError.
   */
  function PickAnswer<R>(responses: seq<R>, reply: string): (r: Result<R>)
    ensures r.Err? <==> responses == []
    ensures r.Err? ==> r.error.IndexError?
    ensures r.Ok? ==> r.value in responses
    ensures ParseInt(reply).Some? && -|responses| <= ParseInt(reply).value < |responses|
      ==> r == PyIndex(responses, ParseInt(reply).value)
    ensures responses != [] && (ParseInt(reply).None? || !(-|responses| <= ParseInt(reply).value < |responses|))
      ==> r == Ok(responses[0])
  {
    var chosen := match ParseInt(reply)
      case Some(k) => PyIndex(responses, k)
      case None => Err(ValueError("invalid literal for int()"));
    if chosen.Ok? then chosen else PyIndex(responses, 0)
  }

  /** A reply naming position i in decimal picks the i-th answer. */
  lemma PickByNumber<R>(responses: seq<R>, i: nat)
    requires i < |responses| && |NatToString(i)| <= MaxStrDigits
    ensures PickAnswer(responses, NatToString(i)) == Ok(responses[i])
  {
    ParseNatToString(i);
  }

  /** A reply "-k" with 1 <= k <= n picks the k-th answer from the end. */
  lemma PickFromEnd<R>(responses: seq<R>, k: nat)
    requires 1 <= k <= |responses| && |NatToString(k)| <= MaxStrDigits
    ensures PickAnswer(responses, "-" + NatToString(k)) == Ok(responses[|responses| - k])
  {
    ParseNegatedNatToString(k);
  }

  /** A reply with no digit in it picks the first answer. */
  lemma PickWithoutNumber<R>(responses: seq<R>, reply: string)
    requires responses != []
    requires forall i :: 0 <= i < |reply| ==> !IsDigit(reply[i])
    ensures PickAnswer(responses, reply) == Ok(responses[0])
  {
  }

  /** A number next to a separator control (U+001C..U+001F) is not an integer: the first answer is picked. */
  lemma PickWithSeparator<R>(responses: seq<R>, reply: string, i: int)
    requires responses != []
    requires 0 <= i < |reply| && IsSeparatorControl(reply[i])
    ensures PickAnswer(responses, reply) == Ok(responses[0])
  {
  }

  /**
   * A reply of more than MaxStrDigits digits is not an integer to `int()`,
   * so it picks the first answer even when its value is a valid position
   * (`"0" * 4300 + "1"` is not read as 1).
   */
  lemma PickOverlongNumber<R>(responses: seq<R>, reply: string)
    requires responses != []
    requires |reply| > MaxStrDigits && forall i :: 0 <= i < |reply| ==> IsDigit(reply[i])
    ensures PickAnswer(responses, reply) == Ok(responses[0])
  {
    ParseIntDigitLimit(reply);
  }

  /** The rendered answers in the order they were given: what the listing shows. */
  function Rendered<R>(responses: seq<R>, render: R -> string): (rendered: seq<string>)
    ensures |rendered| == |responses|
    ensures forall i :: 0 <= i < |responses| ==> rendered[i] == render(responses[i])
  {
    seq(|responses|, i requires 0 <= i < |responses| => render(responses[i]))
  }

  /**
   * `select` and `aselect`: the LLM's reply to the selection prompt
   * (`complete`, which sees the query and the listing) picks among the
   * answers with `_pick_answer`, so both pick the same answer for the same
   * reply.
   */
  function Select<R>(query: string, responses: seq<R>, render: R -> string,
                     complete: (string, string) -> string): (r: Result<R>)
    ensures r.Err? <==> responses == []
    ensures r.Ok? ==> r.value in responses
  {
    PickAnswer(responses, complete(query, ResponseListing(Rendered(responses, render))))
  }

  /**
   * `search`/`asearch`: every engine answers, in engine order, then the
   * answers go to `select`.
   */
  function Search<E, R>(engines: seq<E>, query: string, ask: (E, string) -> R, render: R -> string,
                        complete: (string, string) -> string): (r: Result<R>)
    ensures r.Err? <==> engines == []
    ensures r.Ok? ==> exists i :: 0 <= i < |engines| && r.value == ask(engines[i], query)
  {
    var responses := AnswerAll(engines, query, ask);
    var r := Select(query, responses, render, complete);
    assert r.Ok? ==> exists i :: 0 <= i < |responses| && r.value == responses[i];
    r
  }
}

=== FILE: pdf_parser.dfy ===
/**
 * The PDF parser (rag/lib/readers/parsers/pdf_parser.py): every page's text
 * is the extracted text followed by the OCR of the page's embedded images,
 * with OCR of the whole page as a last resort, and the pages become either
 * one Document or one Document per page. The two PDF libraries, the local
 * OCR engine and the remote vision model are inputs: `texts` is what the text
 * extractor gives per page, `metas` the image-level view of the same file,
 * `local` the raw local OCR of an image and `remote` the vision model's
 * answer (None when it gives no text).
 */
module PdfParser {
  import opened Common
  import opened Text

  /** The image-level view of one page: its embedded images and a picture of the whole page. */
  datatype MetaPage<I> = MetaPage(images: seq<I>, wholePage: I)

  /** Pages shorter than this after local OCR keep the local text. */
  const LocalOcrLimit: nat := 10

  /**
   * `_parse_image`: the locally recognised text, stripped, when it is shorter
   * than ten characters; otherwise the remote answer, or "" when there is none.
   */
  function ParseImage<I>(image: I, local: I -> string, remote: I -> Option<string>): (r: string)
    ensures |Strip(local(image))| < LocalOcrLimit ==> r == Strip(local(image)) && |r| < LocalOcrLimit && NoEdge(r, IsSpace)
    ensures |Strip(local(image))| >= LocalOcrLimit ==> r == remote(image).GetOr("")
    ensures remote(image).None? ==> |r| < LocalOcrLimit
  {
    var text := Strip(local(image));
    if |text| < LocalOcrLimit then text else remote(image).GetOr("")
  }

  /** `self._parse_image` as the function the page loop applies to every image. */
  function ImageOcr<I>(local: I -> string, remote: I -> Option<string>): I -> string {
    image => ParseImage(image, local, remote)
  }

  /** The OCR of a page's images, concatenated in image order. */
  function ImagesOcr<I>(images: seq<I>, ocr: I -> string): string {
    if images == [] then ""
    else ImagesOcr(images[..|images| - 1], ocr) + ocr(images[|images| - 1])
  }

  /** OCR of consecutive runs of images concatenates. */
  lemma {:induction false} ImagesOcrConcat<I>(a: seq<I>, b: seq<I>, ocr: I -> string)
    ensures ImagesOcr(a + b, ocr) == ImagesOcr(a, ocr) + ImagesOcr(b, ocr)
    decreases |b|
  {
    if b != [] {
      var b' := b[..|b| - 1];
      assert (a + b)[..|a + b| - 1] == a + b';
      assert (a + b)[|a + b| - 1] == b[|b| - 1];
      ImagesOcrConcat(a, b', ocr);
    } else {
      assert a + b == a;
    }
  }

  /**
   * One page string: the extracted text followed by its images' OCR; only
   * when both are empty is the whole page OCRed instead.
   */
  function PageString<I>(text: string, meta: MetaPage<I>, ocr: I -> string): (r: string)
    ensures |text| <= |r| && r[..|text|] == text
    ensures text != "" || ImagesOcr(meta.images, ocr) != ""
      ==> r == text + ImagesOcr(meta.images, ocr)
    ensures text == "" && ImagesOcr(meta.images, ocr) == ""
      ==> r == ocr(meta.wholePage)
  {
    var pageOcr := ImagesOcr(meta.images, ocr);
    if pageOcr == "" && text == "" then text + pageOcr + ocr(meta.wholePage)
    else text + pageOcr
  }

  /** `min(i, len(pdf_meta))`: the image-level page read for page i. */
  function MetaIndex(i: nat, count: nat): (m: nat)
    ensures m <= count
    ensures m == i <==> i <= count
  {
    if i < count then i else count
  }

  /**
   * What the page loop of `load_data` produces: one string per page, in page
   * order; a page past the end of the image-level view is read at index
   * `len(pdf_meta)`, which raises IndexError.
   */
  function Pages<I>(texts: seq<string>, metas: seq<MetaPage<I>>, ocr: I -> string)
    : (r: Result<seq<string>>)
    ensures r.Ok? <==> |texts| <= |metas|
    ensures r.Ok? ==> (|r.value| == |texts|
      && forall i :: 0 <= i < |texts| ==> r.value[i] == PageString(texts[i], metas[i], ocr))
    ensures r.Err? ==> r.error == IndexError("page not in document")
  {
    if |texts| <= |metas| then
      Ok(seq(|texts|, i requires 0 <= i < |texts| => PageString(texts[i], metas[i], ocr)))
    else Err(IndexError("page not in document"))
  }

  /** The first |pages| page strings are those `Pages` produces. */
  predicate PagesSoFar<I>(pages: seq<string>, texts: seq<string>, metas: seq<MetaPage<I>>,
                          ocr: I -> string) {
    && |pages| <= |texts| && |pages| <= |metas|
    && forall k :: 0 <= k < |pages| ==> pages[k] == PageString(texts[k], metas[k], ocr)
  }

  lemma PagesSoFarAppend<I>(pages: seq<string>, page: string, texts: seq<string>, metas: seq<MetaPage<I>>,
                            ocr: I -> string)
    requires PagesSoFar(pages, texts, metas, ocr)
    requires |pages| < |texts| && |pages| < |metas|
    requires page == PageString(texts[|pages|], metas[|pages|], ocr)
    ensures PagesSoFar(pages + [page], texts, metas, ocr)
  {
    var longer := pages + [page];
    forall k | 0 <= k < |longer|
      ensures longer[k] == PageString(texts[k], metas[k], ocr)
    {
      if k < |pages| {
        assert longer[k] == pages[k];
      }
    }
  }

  lemma PagesSoFarComplete<I>(pages: seq<string>, texts: seq<string>, metas: seq<MetaPage<I>>,
                              ocr: I -> string)
    requires PagesSoFar(pages, texts, metas, ocr) && |pages| == |texts|
    ensures Pages(texts, metas, ocr) == Ok(pages)
  {
    assert pages == Pages(texts, metas, ocr).value;
  }

  /** `metadata.update(extra_info)` when extra_info is given: its keys override. */
  function WithExtra(base: map<string, string>, extra: Option<map<string, string>>): (r: map<string, string>)
    ensures r.Keys == base.Keys + (if extra.Some? then extra.value.Keys else {})
    ensures extra.Some? ==> forall k :: k in extra.value ==> r[k] == extra.value[k]
    ensures forall k :: k in base && (extra.None? || k !in extra.value) ==> r[k] == base[k]
  {
    if extra.Some? then base + extra.value else base
  }

  /** The metadata of page i's Document: a 1-based page label and the file name, then extra_info. */
  function PageMetadata(i: nat, fileName: string, extra: Option<map<string, string>>): map<string, string> {
    WithExtra(map["page_label" := NatToString(i + 1), "file_name" := fileName], extra)
  }

  /**
   * The Documents built from the pages: one holding every page joined by
   * "\n" when `full`, otherwise one per page in page order.
   */
  function Documents(pages: seq<string>, fileName: string, extra: Option<map<string, string>>, full: bool)
    : (docs: seq<Document>)
    ensures full ==> (|docs| == 1 && docs[0].text == Join(pages, "\n")
      && docs[0].metadata == WithExtra(map["file_name" := fileName], extra))
    ensures !full ==> (|docs| == |pages|
      && forall i :: 0 <= i < |pages| ==> docs[i] == Document(pages[i], PageMetadata(i, fileName, extra)))
  {
    if full then [Document(Join(pages, "\n"), WithExtra(map["file_name" := fileName], extra))]
    else seq(|pages|, i requires 0 <= i < |pages| => Document(pages[i], PageMetadata(i, fileName, extra)))
  }

  /**
   * Page i's label reads back as i + 1 and its file name is the file's,
   * unless extra_info overrides those keys.
   */
  lemma PageLabel(pages: seq<string>, fileName: string, extra: Option<map<string, string>>, i: nat)
    requires i < |pages| && (extra.None? || ("page_label" !in extra.value && "file_name" !in extra.value))
    requires |NatToString(i + 1)| <= MaxStrDigits
    ensures var md := Documents(pages, fileName, extra, false)[i].metadata;
      && "page_label" in md && ParseInt(md["page_label"]) == Some(i + 1)
      && "file_name" in md && md["file_name"] == fileName
  {
    ParseNatToString(i + 1);
  }

  /** The single Document's text splits back into the pages when no page holds a line break. */
  lemma FullDocumentLines(pages: seq<string>, fileName: string, extra: Option<map<string, string>>)
    requires |pages| >= 1 && forall i :: 0 <= i < |pages| ==> '\n' !in pages[i]
    ensures Split(Documents(pages, fileName, extra, true)[0].text, '\n') == pages
  {
    SplitJoin(pages, '\n');
  }

  /** One attempt of `load_data`: the pages, then the Documents. */
  function LoadOnce<I>(texts: seq<string>, metas: seq<MetaPage<I>>, fileName: string, extra: Option<map<string, string>>,
                       full: bool, local: I -> string, remote: I -> Option<string>): (r: Result<seq<Document>>)
    ensures r.Err? <==> |texts| > |metas|
    ensures r.Ok? && !full ==> |r.value| == |texts|
    ensures r.Ok? && full ==> |r.value| == 1
  {
    match Pages(texts, metas, ImageOcr(local, remote))
    case Err(e) => Err(e)
    case Ok(pages) => Ok(Documents(pages, fileName, extra, full))
  }

  /**
   * `load_data` under its three-attempt retry: with the same inputs every
   * attempt fails the same way, so a failure surfaces as RetryError carrying
   * the IndexError.
   */
  function Load<I>(texts: seq<string>, metas: seq<MetaPage<I>>, fileName: string, extra: Option<map<string, string>>,
                   full: bool, local: I -> string, remote: I -> Option<string>): (r: Result<seq<Document>>)
    ensures r.Err? <==> |texts| > |metas|
    ensures r.Err? ==> r.error.RetryError? && r.error.last.IndexError?
    ensures r.Ok? ==> r == LoadOnce(texts, metas, fileName, extra, full, local, remote)
  {
    match LoadOnce(texts, metas, fileName, extra, full, local, remote)
    case Err(e) => Err(RetryError(e))
    case Ok(docs) => Ok(docs)
  }

  /** `PDFParser`: whether it returns one Document for the whole file. */
  class PdfParser {
    const returnFullDocument: bool

    constructor (returnFullDocument: bool := false)
      ensures this.returnFullDocument == returnFullDocument
    {
      this.returnFullDocument := returnFullDocument;
    }

    /** The body of the page loop for one page: `page_ocr += ocr` over the images, then the fallback. */
    method PageText<I>(text: string, meta: MetaPage<I>, ocr: I -> string)
      returns (page: string)
      ensures page == PageString(text, meta, ocr)
    {
      var pageOcr := "";
      var k := 0;
      while k < |meta.images|
        invariant 0 <= k <= |meta.images|
        invariant pageOcr == ImagesOcr(meta.images[..k], ocr)
      {
        assert meta.images[..k + 1][..k] == meta.images[..k];
        pageOcr := pageOcr + ocr(meta.images[k]);
        k := k + 1;
      }
      assert meta.images[..k] == meta.images;
      if pageOcr == "" && text == "" {
        pageOcr := pageOcr + ocr(meta.wholePage);
      }
      page := text + pageOcr;
    }

    /** The page loop of `load_data`: `pages.append(text)` for every page, in page order. */
    method ReadPages<I>(texts: seq<string>, metas: seq<MetaPage<I>>, ocr: I -> string)
      returns (r: Result<seq<string>>)
      ensures r == Pages(texts, metas, ocr)
    {
      var pages: seq<string> := [];
      var i := 0;
      while i < |texts|
        invariant 0 <= i <= |texts| && |pages| == i
        invariant PagesSoFar(pages, texts, metas, ocr)
      {
        var m := MetaIndex(i, |metas|);
        if m >= |metas| {
          return Err(IndexError("page not in document"));
        }
        var page := PageText(texts[i], metas[m], ocr);
        PagesSoFarAppend(pages, page, texts, metas, ocr);
        pages := pages + [page];
        i := i + 1;
      }
      PagesSoFarComplete(pages, texts, metas, ocr);
      r := Ok(pages);
    }

    /** The Document loop of `load_data`: `docs.append(...)` once, or once per page. */
    method BuildDocuments(pages: seq<string>, fileName: string, extra: Option<map<string, string>>)
      returns (docs: seq<Document>)
      ensures docs == Documents(pages, fileName, extra, returnFullDocument)
    {
      docs := [];
      if returnFullDocument {
        docs := docs + [Document(Join(pages, "\n"), WithExtra(map["file_name" := fileName], extra))];
      } else {
        var j := 0;
        while j < |pages|
          invariant 0 <= j <= |pages|
          invariant |docs| == j
          invariant forall k :: 0 <= k < j ==> docs[k] == Document(pages[k], PageMetadata(k, fileName, extra))
        {
          docs := docs + [Document(pages[j], PageMetadata(j, fileName, extra))];
          j := j + 1;
        }
        assert docs == Documents(pages, fileName, extra, false);
      }
    }

    /** One attempt of `load_data`: the page loop, then the Documents. */
    method LoadDataOnce<I>(texts: seq<string>, metas: seq<MetaPage<I>>, fileName: string,
                           extra: Option<map<string, string>>, local: I -> string, remote: I -> Option<string>)
      returns (r: Result<seq<Document>>)
      ensures r == LoadOnce(texts, metas, fileName, extra, returnFullDocument, local, remote)
    {
      var pages := ReadPages(texts, metas, ImageOcr(local, remote));
      if pages.Err? {
        return Err(pages.error);
      }
      var docs := BuildDocuments(pages.value, fileName, extra);
      r := Ok(docs);
    }

    /** `load_data` with its retry decorator. */
    method LoadData<I>(texts: seq<string>, metas: seq<MetaPage<I>>, fileName: string,
                       extra: Option<map<string, string>>, local: I -> string, remote: I -> Option<string>)
      returns (r: Result<seq<Document>>)
      ensures r == Load(texts, metas, fileName, extra, returnFullDocument, local, remote)
    {
      r := LoadDataOnce(texts, metas, fileName, extra, local, remote);
      if r.Err? {
        r := Err(RetryError(r.error));
      }
    }
  }
}

=== FILE: readers.dfy ===
/**
 * The document readers: `DocumentReader` (rag/lib/reader.py), which names
 * itself after the last component of its directory and caches what it reads,
 * and `GenericReader` (cli/lib/rag/readers/generic_reader.py), which forces
 * its own PDF parser into the caller's extractor map and caches likewise.
 * What the underlying directory reader loads is an input.
 */
module Readers {
  import opened Common
  import opened Text

  /** The reader class a `DocumentReader` builds: llama_index's default or the caller's. */
  datatype ReaderClass<C> = SimpleDirectoryReader | GivenReaderClass(cls: C)

  /** A constructed underlying reader: which class, over which directory. */
  datatype ReaderInstance<C> = ReaderInstance(cls: ReaderClass<C>, directory: string)

  /** A file extractor: the PDF parser (with its `return_full_document`) or one of the caller's. */
  datatype Extractor<X> = PdfExtractor(returnFullDocument: bool) | CallerExtractor(extractor: X)

  /** `directory.split("/")[-1]`. */
  function ReaderName(directory: string): (name: string)
    ensures '/' !in name
    ensures |name| <= |directory| && directory[|directory| - |name|..] == name
    ensures '/' !in directory ==> name == directory
    ensures |directory| > 0 && directory[|directory| - 1] == '/' ==> name == ""
  {
    LastPieceIsSuffix(directory, '/');
    LastPieceCases(directory, '/');
    LastPiece(directory, '/')
  }

  /** The two edge cases of a last piece: no separator at all, or a trailing one. */
  lemma LastPieceCases(s: string, sep: char)
    ensures sep !in s ==> LastPiece(s, sep) == s
    ensures |s| > 0 && s[|s| - 1] == sep ==> LastPiece(s, sep) == ""
  {
    if sep !in s {
      LastPieceWithoutSeparator(s, sep);
    }
    if |s| > 0 && s[|s| - 1] == sep {
      LastPieceAfterSeparator(s, sep);
    }
  }

  /** The name is everything after the last "/", whatever comes before it. */
  lemma ReaderNameAfterSlash(prefix: string, name: string)
    requires '/' !in name
    ensures ReaderName(prefix + "/" + name) == name
  {
    var d := prefix + "/" + name;
    var r := ReaderName(d);
    assert d[|d| - |name|..] == name;
    assert d[|d| - |name| - 1] == '/';
    if |r| > |name| {
      assert false;
    }
    if |r| < |name| {
      LastPieceSeparated(d, '/');
      assert false;
    }
    assert r == d[|d| - |r|..];
  }

  /** Unless the last piece is the whole string, it is preceded by the separator. */
  lemma {:induction false} LastPieceSeparated(s: string, sep: char)
    ensures var r := LastPiece(s, sep);
      |r| == |s| || (|r| < |s| && s[|s| - |r| - 1] == sep)
    decreases |s|
  {
    LastPieceIsSuffix(s, sep);
    if sep in s {
      var i := IndexOf(s, sep);
      var tail := s[i + 1..];
      LastPieceOfTail(s, sep);
      LastPieceSeparated(tail, sep);
      var r := LastPiece(s, sep);
      LastPieceIsSuffix(tail, sep);
      if |r| == |tail| {
        assert s[|s| - |r| - 1] == s[i];
      } else {
        assert s[|s| - |r| - 1] == tail[|tail| - |r| - 1];
      }
    } else {
      LastPieceWithoutSeparator(s, sep);
    }
  }

  /**
   * `(file_extractor or {}) | self.file_extractors`: the caller's
   * extractors, with ".pdf" always the class-level `PDFParser()` (one
   * Document per page), since the right operand of `|` wins.
   */
  function MergeExtractors<X>(fileExtractor: Option<map<string, X>>): (r: map<string, Extractor<X>>)
    ensures ".pdf" in r && r[".pdf"] == PdfExtractor(false)
    ensures fileExtractor.None? ==> r.Keys == {".pdf"}
    ensures fileExtractor.Some? ==> r.Keys == fileExtractor.value.Keys + {".pdf"}
    ensures fileExtractor.Some? ==> forall k :: k in fileExtractor.value && k != ".pdf" ==>
      r[k] == CallerExtractor(fileExtractor.value[k])
  {
    var caller := fileExtractor.GetOr(map[]);
    var own := map k | k in caller :: CallerExtractor(caller[k]);
    own + map[".pdf" := PdfExtractor(false)]
  }

  /** `DocumentReader`; the ghost `constructions` counts how often the underlying reader is built. */
  class DocumentReader<C> {
    const directory: string
    const readerCls: ReaderClass<C>
    const name: string
    var documents: Option<seq<Document>>
    var reader: Option<ReaderInstance<C>>
    ghost var constructions: nat

    /** The underlying reader, once built, is the configured class over this directory. */
    ghost predicate Valid()
      reads this
    {
      reader.None? || reader.value == ReaderInstance(readerCls, directory)
    }

    constructor (directory: string, readerCls: Option<C>)
      ensures this.directory == directory && name == ReaderName(directory)
      ensures this.readerCls == if readerCls.Some? then GivenReaderClass(readerCls.value) else SimpleDirectoryReader
      ensures documents == None && reader == None && constructions == 0
      ensures Valid()
    {
      this.directory := directory;
      this.readerCls := if readerCls.Some? then GivenReaderClass(readerCls.value) else SimpleDirectoryReader;
      documents := None;
      name := ReaderName(directory);
      reader := None;
      constructions := 0;
    }

    /**
     * `load_documents`: build the underlying reader if there is none yet,
     * then overwrite the cache with what it loads (`loaded`).
     */
    method LoadDocuments(loaded: seq<Document>) returns (docs: seq<Document>)
      requires Valid()
      modifies this
      ensures Valid()
      ensures reader == Some(ReaderInstance(readerCls, directory))
      ensures old(reader).Some? ==> reader == old(reader)
      ensures constructions == old(constructions) + (if old(reader).None? then 1 else 0)
      ensures documents == Some(loaded) && docs == loaded
    {
      if reader.None? {
        reader := Some(ReaderInstance(readerCls, directory));
        constructions := constructions + 1;
      }
      documents := Some(loaded);
      docs := loaded;
    }

    /** `read_documents`: the cache when it is non-empty, otherwise a load. */
    method ReadDocuments(loaded: seq<Document>) returns (docs: seq<Document>)
      requires Valid()
      modifies this
      ensures Valid()
      ensures old(documents).Some? && old(documents).value != [] ==>
        docs == old(documents).value && documents == old(documents) && reader == old(reader)
        && constructions == old(constructions)
      ensures old(documents).None? || old(documents).value == [] ==>
        (docs == loaded && documents == Some(loaded) && reader == Some(ReaderInstance(readerCls, directory))
        && constructions == old(constructions) + (if old(reader).None? then 1 else 0))
    {
      if documents.Some? && documents.value != [] {
        docs := documents.value;
      } else {
        docs := LoadDocuments(loaded);
      }
    }
  }

  /** `GenericReader`; the ghost `loads` counts calls of `load_data`. */
  class GenericReader<X> {
    const extractors: map<string, Extractor<X>>
    var documents: Option<seq<Document>>
    ghost var loads: nat

    constructor (fileExtractor: Option<map<string, X>>)
      ensures extractors == MergeExtractors(fileExtractor)
      ensures documents == None && loads == 0
    {
      extractors := MergeExtractors(fileExtractor);
      documents := None;
      loads := 0;
    }

    /** `read`: store what `load_data` gives (`loaded`) and return it. */
    method Read(loaded: seq<Document>) returns (docs: seq<Document>)
      modifies this
      ensures documents == Some(loaded) && docs == loaded && loads == old(loads) + 1
    {
      documents := Some(loaded);
      loads := loads + 1;
      docs := loaded;
    }

    /** `get_documents`: the cache when it is non-empty, otherwise `read`. */
    method GetDocuments(loaded: seq<Document>) returns (docs: seq<Document>)
      modifies this
      ensures old(documents).Some? && old(documents).value != [] ==>
        docs == old(documents).value && documents == old(documents) && loads == old(loads)
      ensures old(documents).None? || old(documents).value == [] ==>
        docs == loaded && documents == Some(loaded) && loads == old(loads) + 1
    {
      if documents.Some? && documents.value != [] {
        docs := documents.value;
      } else {
        docs := Read(loaded);
      }
    }
  }

  /** A reader whose first load is non-empty never loads again, however often it is asked. */
  method ReadTwice<X>(fileExtractor: Option<map<string, X>>, first: seq<Document>, second: seq<Document>)
    returns (a: seq<Document>, b: seq<Document>)
    ensures a == first
    ensures first != [] ==> b == first
    ensures first == [] ==> b == second
  {
    var reader := new GenericReader(fileExtractor);
    a := reader.GetDocuments(first);
    b := reader.GetDocuments(second);
  }
}

=== FILE: retriever.dfy ===
/**
 * The front end of the query-fusion retriever (cli/lib/rag/retriever.py): the
 * LLM's reply is parsed into extra queries, the original query is put first,
 * every query is run, and the fused result is truncated to `top_k`. Running
 * the queries and the three fusion scorings belong to the retrieval library,
 * so they are function parameters here: the model says which of them is used
 * and what happens to its output, not how nodes are scored.
 */
module Retriever {
  import opened Common
  import opened Text

  /** The fusion modes the retriever dispatches on; `Other` is any other value. */
  datatype FusionMode =
    | ReciprocalRank
    | RelativeScore
    | DistBasedScore
    | Simple
    | Other(name: string)

  /** The strategies a hybrid retriever combines. */
  datatype Source = VectorSource(topK: int) | Bm25Source(topK: int)

  /** How an `AsyncQueryFusionRetriever` is configured. */
  datatype FusionConfig = FusionConfig(
    sources: seq<Source>,
    topK: int,
    numQueries: int,
    mode: FusionMode,
    useAsync: bool)

  /**
   * `[q.strip() for q in lines if q.strip()]`: the stripped lines, in order,
   * blank ones dropped.
   */
  function StrippedNonBlank(lines: seq<string>): (r: seq<string>)
    ensures |r| <= |lines|
    ensures forall i :: 0 <= i < |r| ==> r[i] != "" && NoEdge(r[i], IsSpace)
  {
    if lines == [] then [] else Kept(lines[0]) + StrippedNonBlank(lines[1..])
  }

  /** What one line contributes: its stripped text, unless that is empty. */
  function Kept(line: string): (r: seq<string>)
    ensures |r| <= 1
    ensures forall i :: 0 <= i < |r| ==> r[i] != "" && NoEdge(r[i], IsSpace)
  {
    var q := Strip(line);
    if q != "" then [q] else []
  }

  /** Filtering distributes over concatenation: each line is kept or dropped on its own. */
  lemma {:induction false} StrippedNonBlankConcat(a: seq<string>, b: seq<string>)
    ensures StrippedNonBlank(a + b) == StrippedNonBlank(a) + StrippedNonBlank(b)
  {
    if a != [] {
      assert (a + b)[0] == a[0];
      assert (a + b)[1..] == a[1..] + b;
      StrippedNonBlankConcat(a[1..], b);
      assert Kept(a[0]) + (StrippedNonBlank(a[1..]) + StrippedNonBlank(b))
        == (Kept(a[0]) + StrippedNonBlank(a[1..])) + StrippedNonBlank(b);
    } else {
      assert a + b == b;
    }
  }

  /** A blank line contributes nothing; a non-blank line contributes its stripped text. */
  lemma StrippedNonBlankOne(line: string)
    ensures StrippedNonBlank([line]) == if Strip(line) == "" then [] else [Strip(line)]
  {
    assert [line][1..] == [];
  }

  /** Lines that are already non-empty and stripped pass through unchanged. */
  lemma {:induction false} StrippedNonBlankOfClean(lines: seq<string>)
    requires forall i :: 0 <= i < |lines| ==> lines[i] != "" && NoEdge(lines[i], IsSpace)
    ensures StrippedNonBlank(lines) == lines
  {
    if lines != [] {
      StripNoEdge(lines[0], IsSpace);
      StrippedNonBlankOfClean(lines[1..]);
    }
  }

  /**
   * `_aget_queries`: backticks are stripped from both ends of the reply, the
   * reply is split on "\n", the lines are stripped, blank ones dropped, and
   * the first `numQueries - 1` are kept (Python's slice, so a negative bound
   * counts from the end). The result is a prefix of the cleaned lines, in
   * reply order and never padded, and every query is non-empty and stripped.
   */
  function GeneratedQueries(reply: string, numQueries: int): (r: seq<string>)
    ensures var lines := StrippedNonBlank(Split(StripBackticks(reply), '\n'));
      |r| <= |lines| && r == lines[..|r|]
    ensures var n := |StrippedNonBlank(Split(StripBackticks(reply), '\n'))|;
      numQueries >= 1 ==> |r| == (if numQueries - 1 < n then numQueries - 1 else n)
    ensures forall i :: 0 <= i < |r| ==> r[i] != "" && NoEdge(r[i], IsSpace)
  {
    PyPrefix(StrippedNonBlank(Split(StripBackticks(reply), '\n')), numQueries - 1)
  }

  /**
   * A reply that lists clean queries one per line is read back as those
   * queries, truncated to `numQueries - 1`.
   */
  lemma GeneratedQueriesOfListing(qs: seq<string>, numQueries: int)
    requires |qs| >= 1
    requires forall i :: 0 <= i < |qs| ==> qs[i] != "" && NoEdge(qs[i], IsSpace) && '\n' !in qs[i]
    requires !IsBacktick(qs[0][0]) && !IsBacktick(qs[|qs| - 1][|qs[|qs| - 1]| - 1])
    ensures GeneratedQueries(Join(qs, "\n"), numQueries) == PyPrefix(qs, numQueries - 1)
  {
    var reply := Join(qs, "\n");
    JoinEdges(qs, "\n");
    StripNoEdge(reply, IsBacktick);
    SplitJoin(qs, '\n');
    StrippedNonBlankOfClean(qs);
  }

  /**
   * `_aretrieve`'s query list: the original query first, then the generated
   * queries, which are asked for only when `numQueries > 1`.
   */
  function QueryList(original: string, numQueries: int, reply: string): (r: seq<string>)
    ensures |r| >= 1 && r[0] == original
    ensures |r| <= if numQueries > 1 then numQueries else 1
    ensures numQueries > 1 ==> r[1..] == GeneratedQueries(reply, numQueries)
  {
    if numQueries > 1 then [original] + GeneratedQueries(reply, numQueries) else [original]
  }

  /** Without query generation the reply is never consulted. */
  lemma QueryListWithoutGeneration(original: string, numQueries: int, reply1: string, reply2: string)
    requires numQueries <= 1
    ensures QueryList(original, numQueries, reply1) == QueryList(original, numQueries, reply2) == [original]
  {
  }

  /**
   * The mode dispatch of `_aretrieve`: the fused list chosen by the mode, cut
   * to `topK` by Python's slice; any other mode raises ValueError. The
   * distance-based mode is the relative-score fusion with `dist_based` set.
   */
  function Fuse<R, N>(mode: FusionMode, topK: int, results: R,
                      reciprocal: R -> seq<N>, relative: (R, bool) -> seq<N>, simple: R -> seq<N>): (r: Result<seq<N>>)
    ensures r.Err? <==> mode.Other?
    ensures r.Err? ==> r.error.ValueError?
    ensures r.Ok? && topK >= 0 ==> |r.value| <= topK
    ensures mode.ReciprocalRank? ==> r == Ok(PyPrefix(reciprocal(results), topK))
    ensures mode.RelativeScore? ==> r == Ok(PyPrefix(relative(results, false), topK))
    ensures mode.DistBasedScore? ==> r == Ok(PyPrefix(relative(results, true), topK))
    ensures mode.Simple? ==> r == Ok(PyPrefix(simple(results), topK))
  {
    match mode
    case ReciprocalRank => Ok(PyPrefix(reciprocal(results), topK))
    case RelativeScore => Ok(PyPrefix(relative(results, false), topK))
    case DistBasedScore => Ok(PyPrefix(relative(results, true), topK))
    case Simple => Ok(PyPrefix(simple(results), topK))
    case Other(name) => Err(ValueError("Invalid fusion mode: " + name))
  }

  /** In every valid mode the result is the head of the fused list: its first min(topK, n) nodes. */
  lemma FuseIsPrefix<R, N>(mode: FusionMode, topK: nat, results: R,
                           reciprocal: R -> seq<N>, relative: (R, bool) -> seq<N>, simple: R -> seq<N>)
    requires !mode.Other?
    ensures var fused := match mode
        case ReciprocalRank => reciprocal(results)
        case RelativeScore => relative(results, false)
        case DistBasedScore => relative(results, true)
        case _ => simple(results);
      var r := Fuse(mode, topK, results, reciprocal, relative, simple);
      r.Ok? && |r.value| == (if topK < |fused| then topK else |fused|) && r.value == fused[..|r.value|]
  {
  }

  /**
   * `_aretrieve` as a whole: the query list is run (by `run`, which stands
   * for the library's concurrent querying) and the results fused by mode.
   */
  function Retrieve<R, N>(config: FusionConfig, original: string, reply: string, run: seq<string> -> R,
                          reciprocal: R -> seq<N>, relative: (R, bool) -> seq<N>, simple: R -> seq<N>): (r: Result<seq<N>>)
    ensures r.Err? <==> config.mode.Other?
    ensures r.Ok? && config.topK >= 0 ==> |r.value| <= config.topK
  {
    Fuse(config.mode, config.topK, run(QueryList(original, config.numQueries, reply)), reciprocal, relative, simple)
  }

  /**
   * `hybrid_search_retriever`: a vector retriever and a BM25 retriever, both
   * at `topK`, fused in reciprocal-rank mode over `queries` queries
   * (callers take `topK = 2` and `queries = 4` by default).
   */
  function HybridSearchRetriever(topK: int, queries: int): (c: FusionConfig)
    ensures |c.sources| == 2 && c.sources[0].VectorSource? && c.sources[1].Bm25Source?
    ensures forall i :: 0 <= i < |c.sources| ==> c.sources[i].topK == c.topK == topK
    ensures c.mode == ReciprocalRank && c.numQueries == queries && c.useAsync
  {
    FusionConfig([VectorSource(topK), Bm25Source(topK)], topK, queries, ReciprocalRank, true)
  }

  /**
   * With the default configuration the hybrid retriever never fails on its
   * mode, runs at most four queries with the original first, and returns at
   * most two nodes.
   */
  lemma HybridDefaults<R, N>(original: string, reply: string, run: seq<string> -> R,
                             reciprocal: R -> seq<N>, relative: (R, bool) -> seq<N>, simple: R -> seq<N>)
    ensures var c := HybridSearchRetriever(2, 4);
      var qs := QueryList(original, c.numQueries, reply);
      var r := Retrieve(c, original, reply, run, reciprocal, relative, simple);
      && 1 <= |qs| <= 4 && qs[0] == original
      && r.Ok? && |r.value| <= 2
  {
  }
}

=== FILE: router.dfy ===
/**
 * The router query engine (cli/lib/rag/engine.py and rag/lib/engine.py): a
 * selector picks which of the query engines answer a query; with several
 * picks every picked engine is queried and their answers combined, with one
 * pick only that engine is queried, and the answer is tagged with the
 * selection. The engines, the selector's LLM and the answer combiner belong
 * to the retrieval library, so they are parameters here.
 */
module Router {
  import opened Common

  /** One picked choice: its position among the engines and why it was picked. */
  datatype Selection = Selection(index: int, reason: string)

  /** What a selector returns: the picked choices, in order. */
  datatype MultiSelection = MultiSelection(selections: seq<Selection>)

  /** A value stored in a response's metadata. */
  datatype MetaValue = SelectorResult(selection: MultiSelection) | Text(text: string)

  /** An engine's answer: its text and its metadata, which may be absent. */
  datatype Response = Response(text: string, metadata: Option<map<string, MetaValue>>)

  /** Which selector a router uses: the select-all selector or the caller's own. */
  datatype SelectorChoice<S> = SelectAllSelector | GivenSelector(selector: S)

  /** The settings `AsyncRouterQueryEngine.from_defaults` builds the router from. */
  datatype AsyncRouterSettings<L, S> = AsyncRouterSettings(llm: L, selector: SelectorChoice<S>)

  /** The settings `router_query_engine` passes to the library's router. */
  datatype RouterSettings<L, S> = RouterSettings(llm: Option<L>, selector: SelectorChoice<S>, selectMulti: bool)

  /** `result.inds`: the engine positions of the picked choices, in order. */
  function Inds(result: MultiSelection): (r: seq<int>)
    ensures |r| == |result.selections|
    ensures forall i :: 0 <= i < |r| ==> r[i] == result.selections[i].index
  {
    seq(|result.selections|, i requires 0 <= i < |result.selections| => result.selections[i].index)
  }

  /**
   * `SelectAllSelector._select` (and `_aselect`, which returns the same):
   * one selection per choice, the i-th with index i and reason "All",
   * whatever the query.
   */
  function SelectAll<C>(choices: seq<C>, query: string): (r: MultiSelection)
    ensures |r.selections| == |choices|
    ensures forall i :: 0 <= i < |choices| ==> r.selections[i] == Selection(i, "All")
  {
    MultiSelection(seq(|choices|, i => Selection(i, "All")))
  }

  /** The select-all selector ignores the query and picks every position in order. */
  lemma SelectAllPicksEveryIndex<C>(choices: seq<C>, q1: string, q2: string)
    ensures SelectAll(choices, q1) == SelectAll(choices, q2)
    ensures var inds := Inds(SelectAll(choices, q1));
      |inds| == |choices| && forall i :: 0 <= i < |inds| ==> inds[i] == i
  {
  }

  /** `llm or Settings.llm` and `selector or SelectAllSelector()`. */
  function FromDefaults<L, S>(llm: Option<L>, selector: Option<S>, settingsLlm: L): (r: AsyncRouterSettings<L, S>)
    ensures r.selector.SelectAllSelector? <==> selector.None?
    ensures selector.Some? ==> r.selector == GivenSelector(selector.value)
    ensures r.llm == llm.GetOr(settingsLlm)
  {
    AsyncRouterSettings(llm.GetOr(settingsLlm), if selector.Some? then GivenSelector(selector.value) else SelectAllSelector)
  }

  /** `router_query_engine` in rag/lib/engine.py: the select-all selector by default, always multi-select. */
  function RouterDefaults<L, S>(llm: Option<L>, selector: Option<S>): (r: RouterSettings<L, S>)
    ensures r.selector.SelectAllSelector? <==> selector.None?
    ensures selector.Some? ==> r.selector == GivenSelector(selector.value)
    ensures r.selectMulti && r.llm == llm
  {
    RouterSettings(llm, if selector.Some? then GivenSelector(selector.value) else SelectAllSelector, true)
  }

  /** `[reranker] if reranker else None`: the postprocessor list of `create_query_engine` and `create_chat_engine`. */
  function NodePostprocessors<P>(reranker: Option<P>): (r: Option<seq<P>>)
    ensures r.Some? <==> reranker.Some?
    ensures r.Some? ==> |r.value| == 1 && r.value[0] == reranker.value
  {
    if reranker.Some? then Some([reranker.value]) else None
  }

  /**
   * Looking up the engine of every picked position, in order
   * (`self._query_engines[engine_ind]` in the loop): the first position
   * outside the list raises IndexError and stops the loop.
   */
  function Dispatch<E>(engines: seq<E>, inds: seq<int>): (r: Result<seq<E>>)
    ensures r.Ok? <==> forall i :: 0 <= i < |inds| ==> PyIndex(engines, inds[i]).Ok?
    ensures r.Ok? ==> |r.value| == |inds| && forall i :: 0 <= i < |inds| ==> PyIndex(engines, inds[i]) == Ok(r.value[i])
    ensures r.Err? ==> r.error == IndexError("list index out of range")
  {
    if inds == [] then Ok([])
    else
      var front := inds[..|inds| - 1];
      assert forall i :: 0 <= i < |front| ==> front[i] == inds[i];
      match Dispatch(engines, front)
      case Err(e) => Err(e)
      case Ok(es) =>
        match PyIndex(engines, inds[|inds| - 1])
        case Err(e) => Err(e)
        case Ok(x) => Ok(es + [x])
  }

  /**
   * `asyncio.gather` over the picked engines' queries, as an in-order map:
   * every answer in engine order, or a failure as soon as one engine fails.
   */
  function AskAll<E>(ask: E -> Result<Response>, es: seq<E>): (r: Result<seq<Response>>)
    ensures r.Ok? <==> forall i :: 0 <= i < |es| ==> ask(es[i]).Ok?
    ensures r.Ok? ==> |r.value| == |es| && forall i :: 0 <= i < |es| ==> ask(es[i]) == Ok(r.value[i])
  {
    if es == [] then Ok([])
    else
      var front := es[..|es| - 1];
      assert forall i :: 0 <= i < |front| ==> front[i] == es[i];
      match AskAll(ask, front)
      case Err(e) => Err(e)
      case Ok(rs) =>
        match ask(es[|es| - 1])
        case Err(e) => Err(e)
        case Ok(x) => Ok(rs + [x])
  }

  /**
   * `final_response.metadata = final_response.metadata or {}` followed by
   * `metadata["selector_result"] = result`: the selection is stored under
   * "selector_result" and every other key keeps its value.
   */
  function Tag(response: Response, result: MultiSelection): (r: Response)
    ensures r.text == response.text && r.metadata.Some?
    ensures "selector_result" in r.metadata.value && r.metadata.value["selector_result"] == SelectorResult(result)
    ensures response.metadata.Some? ==> forall k :: k in response.metadata.value && k != "selector_result" ==>
      k in r.metadata.value && r.metadata.value[k] == response.metadata.value[k]
    ensures forall k :: k in r.metadata.value && k != "selector_result" ==>
      response.metadata.Some? && k in response.metadata.value
  {
    Response(response.text, Some(response.metadata.GetOr(map[])["selector_result" := SelectorResult(result)]))
  }

  /**
   * The engines `_aquery` queries: every picked engine when more than one
   * position is picked, otherwise the engine at `single` (what `result.ind`
   * gives); none when a lookup fails first.
   */
  function Queried<E>(engines: seq<E>, result: MultiSelection, single: Result<int>): seq<E> {
    if |Inds(result)| > 1 then
      match Dispatch(engines, Inds(result))
      case Ok(es) => es
      case Err(_) => []
    else
      match single
      case Ok(k) => (match PyIndex(engines, k) case Ok(e) => [e] case Err(_) => [])
      case Err(_) => []
  }

  /**
   * `AsyncRouterQueryEngine._aquery` after the selector has answered
   * `result`. `single` is what `result.ind` (with `result.reason`) gives,
   * a ValueError when the selection does not name one engine; `ask` is an
   * engine's answer or failure; `combine` stands for `acombine_responses`.
   */
  function Route<E>(engines: seq<E>, result: MultiSelection, single: Result<int>,
                    ask: E -> Result<Response>, combine: seq<Response> -> Response): (r: Result<Response>)
    ensures r.Ok? ==> (r.value.metadata.Some? && "selector_result" in r.value.metadata.value
      && r.value.metadata.value["selector_result"] == SelectorResult(result))
  {
    var inds := Inds(result);
    if |inds| > 1 then
      match Dispatch(engines, inds)
      case Err(e) => Err(e)
      case Ok(es) =>
        match AskAll(ask, es)
        case Err(e) => Err(e)
        case Ok(responses) =>
          // as many answers as picks, so the one-answer branch of the source is never taken
          assert |responses| > 1;
          Ok(Tag(combine(responses), result))
    else
      match single
      case Err(ValueError(_)) => Err(ValueError("Failed to select query engine"))
      case Err(e) => Err(e)
      case Ok(k) =>
        match PyIndex(engines, k)
        case Err(e) => Err(e)
        case Ok(engine) =>
          match ask(engine)
          case Err(e) => Err(e)
          case Ok(response) => Ok(Tag(response, result))
  }

  /**
   * With several picks every picked engine is queried once, in pick order,
   * and the answers are always combined: there are as many answers as picks,
   * so the single-answer branch is never taken.
   */
  lemma RouteMultiCombines<E>(engines: seq<E>, result: MultiSelection, single: Result<int>,
                              ask: E -> Result<Response>, combine: seq<Response> -> Response)
    requires |Inds(result)| > 1
    requires forall i :: 0 <= i < |result.selections| ==> -|engines| <= result.selections[i].index < |engines|
    requires forall i :: 0 <= i < |result.selections| ==> ask(PyIndex(engines, result.selections[i].index).value).Ok?
    ensures var es := Queried(engines, result, single);
      && |es| == |result.selections|
      && (forall i :: 0 <= i < |es| ==> Ok(es[i]) == PyIndex(engines, result.selections[i].index))
      && AskAll(ask, es).Ok? && |AskAll(ask, es).value| > 1
      && Route(engines, result, single, ask, combine) == Ok(Tag(combine(AskAll(ask, es).value), result))
  {
    var inds := Inds(result);
    assert forall i :: 0 <= i < |inds| ==> PyIndex(engines, inds[i]).Ok?;
  }

  /** One failing engine fails the whole query: there is no per-engine isolation. */
  lemma RouteFailsWithAnyEngine<E>(engines: seq<E>, result: MultiSelection, single: Result<int>,
                                   ask: E -> Result<Response>, combine: seq<Response> -> Response, j: nat)
    requires |Inds(result)| > 1
    requires j < |Queried(engines, result, single)| && ask(Queried(engines, result, single)[j]).Err?
    ensures Route(engines, result, single, ask, combine).Err?
  {
  }

  /** With at most one pick, a selection that does not resolve is reported as "Failed to select query engine". */
  lemma RouteSelectionFailure<E>(engines: seq<E>, result: MultiSelection, message: string,
                                 ask: E -> Result<Response>, combine: seq<Response> -> Response)
    requires |result.selections| <= 1
    ensures Route(engines, result, Err(ValueError(message)), ask, combine) == Err(ValueError("Failed to select query engine"))
    ensures Queried(engines, result, Err(ValueError(message))) == []
  {
  }

  /** With at most one pick, only the engine at `result.ind` is queried and its answer is tagged. */
  lemma RouteSingle<E>(engines: seq<E>, result: MultiSelection, k: int,
                       ask: E -> Result<Response>, combine: seq<Response> -> Response)
    requires |result.selections| <= 1 && -|engines| <= k < |engines|
    ensures var e := if k >= 0 then engines[k] else engines[|engines| + k];
      && Queried(engines, result, Ok(k)) == [e]
      && Route(engines, result, Ok(k), ask, combine)
         == (match ask(e) case Ok(response) => Ok(Tag(response, result)) case Err(err) => Err(err))
  {
  }

  /** A router built with the default selector queries every one of its engines, in order, once each. */
  lemma DefaultRouterQueriesAll<E, L, S>(engines: seq<E>, llm: Option<L>, settingsLlm: L, query: string, single: Result<int>)
    requires |engines| >= 1
    requires |engines| == 1 ==> single == Ok(0)
    ensures FromDefaults<L, S>(llm, None, settingsLlm).selector.SelectAllSelector?
    ensures Queried(engines, SelectAll(engines, query), single) == engines
  {
    var result := SelectAll(engines, query);
    SelectAllPicksEveryIndex(engines, query, query);
    if |engines| > 1 {
      var es := Dispatch(engines, Inds(result)).value;
      assert forall i :: 0 <= i < |engines| ==> PyIndex(engines, i) == Ok(es[i]);
    } else {
      assert PyIndex(engines, 0) == Ok(engines[0]);
    }
  }

  /** The engine lookups of `_aquery`'s task list, one by one; the first index out of range raises. */
  method LookUpEngines<E>(engines: seq<E>, inds: seq<int>) returns (r: Result<seq<E>>)
    ensures r == Dispatch(engines, inds)
  {
    var tasks: seq<E> := [];
    var i := 0;
    while i < |inds|
      invariant 0 <= i <= |inds|
      invariant Dispatch(engines, inds[..i]) == Ok(tasks)
    {
      var engine := PyIndex(engines, inds[i]);
      assert inds[..i + 1][..i] == inds[..i];
      if engine.Err? {
        return Err(engine.error);
      }
      tasks := tasks + [engine.value];
      i := i + 1;
    }
    assert inds[..i] == inds;
    r := Ok(tasks);
  }

  /** The awaited answers of the picked engines, in task order; the first failure is the one raised. */
  method AskInTurn<E>(ask: E -> Result<Response>, tasks: seq<E>) returns (answers: Result<seq<Response>>)
    ensures answers == AskAll(ask, tasks)
  {
    answers := Ok([]);
    var j := 0;
    while j < |tasks|
      invariant 0 <= j <= |tasks|
      invariant answers == AskAll(ask, tasks[..j])
    {
      assert tasks[..j + 1][..j] == tasks[..j];
      var answer := ask(tasks[j]);
      if answers.Ok? {
        answers := if answer.Ok? then Ok(answers.value + [answer.value]) else Err(answer.error);
      }
      j := j + 1;
    }
    assert tasks[..j] == tasks;
  }

  /**
   * `_aquery`: the picked engines are looked up, then queried (the in-order
   * reading of `asyncio.gather`), and the answer is tagged with the
   * selection. Returns the answer and the engines it queried.
   */
  method AQuery<E>(engines: seq<E>, result: MultiSelection, single: Result<int>,
                   ask: E -> Result<Response>, combine: seq<Response> -> Response)
    returns (r: Result<Response>, queried: seq<E>)
    ensures r == Route(engines, result, single, ask, combine)
    ensures queried == Queried(engines, result, single)
  {
    var inds := Inds(result);
    if |inds| > 1 {
      var tasks := LookUpEngines(engines, inds);
      if tasks.Err? {
        return Err(tasks.error), [];
      }
      queried := tasks.value;
      var answers := AskInTurn(ask, queried);
      if answers.Err? {
        return Err(answers.error), queried;
      }
      var responses := answers.value;
      assert |responses| > 1;
      r := Ok(Tag(combine(responses), result));
    } else {
      queried := [];
      if single.Err? {
        r := if single.error.ValueError? then Err(ValueError("Failed to select query engine")) else Err(single.error);
        return;
      }
      var engine := PyIndex(engines, single.value);
      if engine.Err? {
        return Err(engine.error), [];
      }
      queried := [engine.value];
      var answer := ask(engine.value);
      r := if answer.Ok? then Ok(Tag(answer.value, result)) else Err(answer.error);
    }
  }
}

=== FILE: text.dfy ===
/**
 * The handful of Python `str` operations the modelled code relies on, written
 * out so that their edge cases are explicit: `strip()` and `strip(chars)`,
 * `split(sep)`, `sep.join(parts)`, `splitlines()[0]`, `str(n)` and `int(s)`.
 * Characters are Unicode scalar values, so `|s|` is Python's `len(s)`.
 */
module Text {
  import opened Common

  /** Python's `str.isspace()` on one character: the set `str.strip()` removes. */
  predicate IsSpace(c: char) {
    || ('\t' <= c <= '\r')
    || ('\U{1c}' <= c <= '\U{1f}')
    || c == ' ' || c == '\U{85}' || c == '\U{a0}' || c == '\U{1680}'
    || ('\U{2000}' <= c <= '\U{200a}')
    || c == '\U{2028}' || c == '\U{2029}' || c == '\U{202f}' || c == '\U{205f}' || c == '\U{3000}'
  }

  /** The characters at which Python's `str.splitlines()` ends a line. */
  predicate IsLineBoundary(c: char) {
    || c == '\n' || c == '\r' || c == '\U{0b}' || c == '\U{0c}'
    || ('\U{1c}' <= c <= '\U{1e}')
    || c == '\U{85}' || c == '\U{2028}' || c == '\U{2029}'
  }

  lemma LetterIsNotSpace(c: char)
    requires 'a' <= c <= 'z'
    ensures !IsSpace(c) && !IsLineBoundary(c)
  {
  }

  /**
   * The whitespace `int()` ignores around a number: the `isspace()` set
   * without the four separators U+001C..U+001F, which `int()` rejects.
   */
  predicate IsIntSpace(c: char) {
    IsSpace(c) && !('\U{1c}' <= c <= '\U{1f}')
  }

  /** The information separators U+001C..U+001F. */
  predicate IsSeparatorControl(c: char) {
    '\U{1c}' <= c <= '\U{1f}'
  }

  predicate IsBacktick(c: char) {
    c == '`'
  }

  /** Neither end of `s` is a character that `drop` selects. */
  predicate NoEdge(s: string, drop: char -> bool) {
    |s| > 0 ==> !drop(s[0]) && !drop(s[|s| - 1])
  }

  /** How many characters at the front of `s` are `drop` characters. */
  function Leading(s: string, drop: char -> bool): (n: nat)
    ensures n <= |s|
    ensures forall i :: 0 <= i < n ==> drop(s[i])
    ensures n < |s| ==> !drop(s[n])
  {
    if |s| > 0 && drop(s[0]) then
      var n := 1 + Leading(s[1..], drop);
      assert forall i :: 1 <= i < n ==> s[i] == s[1..][i - 1];
      n
    else 0
  }

  /** How many characters at the back of `s` are `drop` characters. */
  function Trailing(s: string, drop: char -> bool): (n: nat)
    ensures n <= |s|
    ensures forall i :: |s| - n <= i < |s| ==> drop(s[i])
    ensures n < |s| ==> !drop(s[|s| - 1 - n])
  {
    if |s| > 0 && drop(s[|s| - 1]) then
      var n := 1 + Trailing(s[..|s| - 1], drop);
      assert forall i :: |s| - n <= i < |s| - 1 ==> s[i] == s[..|s| - 1][i];
      n
    else 0
  }

  /**
   * Python's `s.strip(chars)`: the longest run of `drop` characters is removed
   * from each end. The result is the slice of `s` that starts after the
   * leading run, with no `drop` character at either end; everything removed
   * was a `drop` character.
   */
  function StripBy(s: string, drop: char -> bool): (r: string)
    ensures NoEdge(r, drop)
    ensures Leading(s, drop) + |r| <= |s|
    ensures r == s[Leading(s, drop)..Leading(s, drop) + |r|]
  {
    var a := Leading(s, drop);
    var t := s[a..];
    var b := Trailing(t, drop);
    var r := t[..|t| - b];
    assert r == s[a..a + |r|];
    assert forall i :: a + |r| <= i < |s| ==> s[i] == t[i - a];
    assert |r| > 0 ==> r[0] == s[a] && r[|r| - 1] == t[|t| - 1 - b];
    r
  }

  /** Everything `strip` removes, before and after the kept slice, is a `drop` character. */
  lemma StripRemovesOnlyDropped(s: string, drop: char -> bool)
    ensures var a, r := Leading(s, drop), StripBy(s, drop);
      (forall i :: 0 <= i < a ==> drop(s[i])) && (forall i :: a + |r| <= i < |s| ==> drop(s[i]))
  {
    var a := Leading(s, drop);
    var t := s[a..];
    var b := Trailing(t, drop);
    assert StripBy(s, drop) == t[..|t| - b];
    assert forall i :: a + |t| - b <= i < |s| ==> s[i] == t[i - a];
  }

  /** Python's `s.strip()`. */
  function Strip(s: string): string {
    StripBy(s, IsSpace)
  }

  /** Python's `s.strip("`")`. */
  function StripBackticks(s: string): string {
    StripBy(s, IsBacktick)
  }

  /** `strip` leaves nothing exactly when every character is stripped. */
  lemma StripEmptyIff(s: string, drop: char -> bool)
    ensures StripBy(s, drop) == [] <==> forall i :: 0 <= i < |s| ==> drop(s[i])
  {
    if StripBy(s, drop) != [] {
      assert !drop(s[Leading(s, drop)]);
    }
  }

  /** `strip` changes nothing when neither end needs stripping. */
  lemma StripNoEdge(s: string, drop: char -> bool)
    requires NoEdge(s, drop)
    ensures StripBy(s, drop) == s
  {
  }

  /** `strip` is idempotent. */
  lemma StripIdempotent(s: string, drop: char -> bool)
    ensures StripBy(StripBy(s, drop), drop) == StripBy(s, drop)
  {
    StripNoEdge(StripBy(s, drop), drop);
  }

  /** The first position of `c` in `s`. */
  function IndexOf(s: string, c: char): (i: nat)
    requires c in s
    ensures i < |s| && s[i] == c && c !in s[..i]
  {
    if s[0] == c then 0 else 1 + IndexOf(s[1..], c)
  }

  /** Python's `sep.join(parts)`. */
  function Join(parts: seq<string>, sep: string): string {
    if |parts| == 0 then ""
    else if |parts| == 1 then parts[0]
    else parts[0] + sep + Join(parts[1..], sep)
  }

  /** A join of non-empty parts starts like its first part and ends like its last. */
  lemma {:induction false} JoinEdges(parts: seq<string>, sep: string)
    requires |parts| >= 1 && forall i :: 0 <= i < |parts| ==> parts[i] != ""
    ensures |Join(parts, sep)| > 0 && Join(parts, sep)[0] == parts[0][0]
    ensures Join(parts, sep)[|Join(parts, sep)| - 1] == parts[|parts| - 1][|parts[|parts| - 1]| - 1]
  {
    if |parts| > 1 {
      var rest := Join(parts[1..], sep);
      JoinEdges(parts[1..], sep);
      var s := parts[0] + sep + rest;
      assert s[|s| - 1] == rest[|rest| - 1];
    }
  }

  /**
   * Python's `s.split(sep)` for a one-character separator: always at least one
   * piece, and no piece holds the separator.
   */
  function Split(s: string, sep: char): (r: seq<string>)
    ensures |r| >= 1
    ensures forall i :: 0 <= i < |r| ==> sep !in r[i]
    decreases |s|
  {
    if sep !in s then [s]
    else
      var i := IndexOf(s, sep);
      [s[..i]] + Split(s[i + 1..], sep)
  }

  /** Joining the pieces back with the separator gives `s` again. */
  lemma {:induction false} JoinSplit(s: string, sep: char)
    ensures Join(Split(s, sep), [sep]) == s
    decreases |s|
  {
    if sep in s {
      var i := IndexOf(s, sep);
      var rest := Split(s[i + 1..], sep);
      JoinSplit(s[i + 1..], sep);
      assert Split(s, sep) == [s[..i]] + rest;
      assert ([s[..i]] + rest)[1..] == rest;
      assert s == s[..i] + [sep] + s[i + 1..];
    }
  }

  /** Splitting what was joined gives back the parts when no part holds the separator. */
  lemma {:induction false} SplitJoin(parts: seq<string>, sep: char)
    requires |parts| >= 1
    requires forall i :: 0 <= i < |parts| ==> sep !in parts[i]
    ensures Split(Join(parts, [sep]), sep) == parts
  {
    if |parts| > 1 {
      var s := Join(parts, [sep]);
      assert s == parts[0] + [sep] + Join(parts[1..], [sep]);
      assert sep in s by { assert s[|parts[0]|] == sep; }
      assert s[..|parts[0]|] == parts[0];
      var i := IndexOf(s, sep);
      assert i == |parts[0]|;
      assert s[..i] == parts[0];
      assert s[i + 1..] == Join(parts[1..], [sep]);
      SplitJoin(parts[1..], sep);
    }
  }

  /** Python's `s.split(sep)[-1]`: what follows the last separator. */
  function LastPiece(s: string, sep: char): (r: string)
    ensures sep !in r
  {
    var pieces := Split(s, sep);
    pieces[|pieces| - 1]
  }

  /** The last piece is what ends `s`. */
  lemma {:induction false} LastPieceIsSuffix(s: string, sep: char)
    ensures |LastPiece(s, sep)| <= |s| && s[|s| - |LastPiece(s, sep)|..] == LastPiece(s, sep)
    decreases |s|
  {
    if sep in s {
      var tail := s[IndexOf(s, sep) + 1..];
      LastPieceOfTail(s, sep);
      LastPieceIsSuffix(tail, sep);
      SuffixOfSlice(s, IndexOf(s, sep) + 1, LastPiece(tail, sep));
    } else {
      assert Split(s, sep) == [s];
    }
  }

  /** Without a separator, the last piece is the whole string. */
  lemma LastPieceWithoutSeparator(s: string, sep: char)
    requires sep !in s
    ensures LastPiece(s, sep) == s
  {
  }

  /** A string that ends with the separator has an empty last piece. */
  lemma {:induction false} LastPieceAfterSeparator(s: string, sep: char)
    requires |s| > 0 && s[|s| - 1] == sep
    ensures LastPiece(s, sep) == ""
    decreases |s|
  {
    var tail := s[IndexOf(s, sep) + 1..];
    LastPieceOfTail(s, sep);
    if |tail| > 0 {
      assert tail[|tail| - 1] == sep;
      LastPieceAfterSeparator(tail, sep);
    } else {
      assert Split(tail, sep) == [tail];
    }
  }

  lemma LastPieceOfTail(s: string, sep: char)
    requires sep in s
    ensures LastPiece(s, sep) == LastPiece(s[IndexOf(s, sep) + 1..], sep)
  {
    var i := IndexOf(s, sep);
    var rest := Split(s[i + 1..], sep);
    var pieces := Split(s, sep);
    assert pieces == [s[..i]] + rest;
    assert |pieces| == 1 + |rest|;
    assert pieces[|pieces| - 1] == rest[|rest| - 1];
  }

  lemma SuffixOfSlice(s: string, k: nat, t: string)
    requires k <= |s| && |t| <= |s| - k && s[k..][|s| - k - |t|..] == t
    ensures |t| <= |s| && s[|s| - |t|..] == t
  {
    assert s[k..][|s| - k - |t|..] == s[|s| - |t|..];
  }

  /** Where the first line of `s` ends (the first line boundary, or the end). */
  function LineEnd(s: string): (i: nat)
    ensures i <= |s|
    ensures forall j :: 0 <= j < i ==> !IsLineBoundary(s[j])
    ensures i < |s| ==> IsLineBoundary(s[i])
  {
    if |s| == 0 || IsLineBoundary(s[0]) then 0 else 1 + LineEnd(s[1..])
  }

  /**
   * Python's `s.splitlines()[0]`: None where Python raises IndexError (the
   * empty string has no lines); otherwise the text before the first line
   * boundary.
   */
  function FirstLine(s: string): (r: Option<string>)
    ensures r.None? <==> s == ""
    ensures r.Some? ==> |r.value| <= |s| && r.value == s[..|r.value|]
    ensures r.Some? ==> forall j :: 0 <= j < |r.value| ==> !IsLineBoundary(r.value[j])
    ensures r.Some? && |r.value| < |s| ==> IsLineBoundary(s[|r.value|])
  {
    if s == "" then None else Some(s[..LineEnd(s)])
  }

  predicate IsDigit(c: char) {
    '0' <= c <= '9'
  }

  function DigitChar(d: nat): (c: char)
    requires d < 10
    ensures IsDigit(c)
  {
    (('0' as int) + d) as char
  }

  function DigitValue(c: char): (d: nat)
    requires IsDigit(c)
    ensures d < 10 && DigitChar(d) == c
  {
    (c as int) - ('0' as int)
  }

  /** Python's `str(n)` for a natural number: its decimal digits, no leading zero. */
  function NatToString(n: nat): (r: string)
    ensures |r| >= 1 && forall i :: 0 <= i < |r| ==> IsDigit(r[i])
    ensures |r| > 1 ==> r[0] != '0'
  {
    if n < 10 then [DigitChar(n)] else NatToString(n / 10) + [DigitChar(n % 10)]
  }

  /** `int()` accepts digits with single underscores between them. */
  predicate WellFormedDigits(s: string) {
    && |s| > 0 && IsDigit(s[0]) && IsDigit(s[|s| - 1])
    && (forall i :: 0 <= i < |s| ==> IsDigit(s[i]) || s[i] == '_')
    && (forall i :: 0 <= i < |s| - 1 ==> !(s[i] == '_' && s[i + 1] == '_'))
  }

  /**
   * Python's default limit on integer string conversion: `int()` raises
   * ValueError on a string of more digits (leading zeros counted, sign and
   * underscores not), and `str(n)` raises for an n of more digits.
   */
  const MaxStrDigits := 4300

  /** How many decimal digits `s` holds. */
  function DigitCount(s: string): (n: nat)
    ensures n <= |s|
    ensures (forall i :: 0 <= i < |s| ==> IsDigit(s[i])) ==> n == |s|
  {
    if s == [] then 0
    else DigitCount(s[..|s| - 1]) + (if IsDigit(s[|s| - 1]) then 1 else 0)
  }

  /** The value of a digit string, underscores skipped. */
  function DigitsValue(s: string): nat
    requires forall i :: 0 <= i < |s| ==> IsDigit(s[i]) || s[i] == '_'
  {
    if s == [] then 0
    else if s[|s| - 1] == '_' then DigitsValue(s[..|s| - 1])
    else 10 * DigitsValue(s[..|s| - 1]) + DigitValue(s[|s| - 1])
  }

  /**
   * Python's `int(s)` on a string: surrounding whitespace (other than
   * U+001C..U+001F) is ignored, one optional sign, then ASCII digits with
   * single underscores between them, at most MaxStrDigits digits; anything
   * else is None (where Python raises ValueError).
   */
  function ParseInt(s: string): (r: Option<int>)
    ensures r.Some? ==> exists i :: 0 <= i < |s| && IsDigit(s[i])
    ensures r.Some? ==> forall i :: 0 <= i < |s| ==> !IsSeparatorControl(s[i])
  {
    var t := StripBy(s, IsIntSpace);
    if |t| > 0 && (t[0] == '-' || t[0] == '+') then
      if WellFormedDigits(t[1..]) && DigitCount(t[1..]) <= MaxStrDigits then
        ParsedSource(s);
        var v: int := DigitsValue(t[1..]);
        Some(if t[0] == '-' then -v else v)
      else None
    else if WellFormedDigits(t) && DigitCount(t) <= MaxStrDigits then
      ParsedSource(s);
      Some(DigitsValue(t))
    else None
  }

  /**
   * When the stripped text is a number, `s` holds a digit and no separator
   * control: the stripping removed only `int()` whitespace, and a number is
   * made of a sign, digits and underscores.
   */
  lemma ParsedSource(s: string)
    requires var t := StripBy(s, IsIntSpace);
      (|t| > 0 && (t[0] == '-' || t[0] == '+') && WellFormedDigits(t[1..])) || WellFormedDigits(t)
    ensures exists i :: 0 <= i < |s| && IsDigit(s[i])
    ensures forall i :: 0 <= i < |s| ==> !IsSeparatorControl(s[i])
  {
    var t := StripBy(s, IsIntSpace);
    var a := Leading(s, IsIntSpace);
    StripRemovesOnlyDropped(s, IsIntSpace);
    var u := if WellFormedDigits(t) then t else t[1..];
    var k := |t| - |u|;
    assert forall j :: 0 <= j < |u| ==> u[j] == s[a + k + j];
    assert IsDigit(s[a + k + |u| - 1]);
    forall i | 0 <= i < |s|
      ensures !IsSeparatorControl(s[i])
    {
      if a <= i < a + |t| {
        assert s[i] == t[i - a];
        if i - a >= k {
          assert s[i] == u[i - a - k];
        }
      }
    }
  }

  lemma {:induction false} DigitsValueOfNat(n: nat)
    ensures DigitsValue(NatToString(n)) == n
  {
    if n >= 10 {
      var s := NatToString(n);
      var prefix := NatToString(n / 10);
      assert s[..|s| - 1] == prefix;
      DigitsValueOfNat(n / 10);
    }
  }

  /** A decimal rendering is a well-formed digit string whose ends are not whitespace. */
  lemma NatToStringWellFormed(n: nat)
    ensures WellFormedDigits(NatToString(n)) && NoEdge(NatToString(n), IsIntSpace)
  {
  }

  /** `int(str(n)) == n`: the decimal rendering parses back to the number, for every n `str` accepts. */
  lemma ParseNatToString(n: nat)
    requires |NatToString(n)| <= MaxStrDigits
    ensures ParseInt(NatToString(n)) == Some(n)
  {
    var s := NatToString(n);
    NatToStringWellFormed(n);
    StripNoEdge(s, IsIntSpace);
    DigitsValueOfNat(n);
  }

  /** A minus sign before well-formed digits, with no surrounding whitespace, parses to the negated value. */
  lemma ParseMinusDigits(s: string)
    requires NoEdge(s, IsIntSpace) && |s| > 1 && s[0] == '-' && WellFormedDigits(s[1..])
    requires DigitCount(s[1..]) <= MaxStrDigits
    ensures ParseInt(s) == Some(-(DigitsValue(s[1..]) as int))
  {
    StripNoEdge(s, IsIntSpace);
  }

  /** `int("-" + str(n)) == -n`: a leading minus sign negates, for every n `str` accepts. */
  lemma ParseNegatedNatToString(n: nat)
    requires |NatToString(n)| <= MaxStrDigits
    ensures ParseInt("-" + NatToString(n)) == Some(-(n as int))
  {
    var digits := NatToString(n);
    var s := "-" + digits;
    NatToStringWellFormed(n);
    assert s[0] == '-' && s[|s| - 1] == digits[|digits| - 1] && s[1..] == digits;
    assert !IsIntSpace('-');
    DigitsValueOfNat(n);
    ParseMinusDigits(s);
  }

  /** A run of more than MaxStrDigits digits is not an integer, whatever its value. */
  lemma ParseIntDigitLimit(d: string)
    requires |d| > MaxStrDigits && forall i :: 0 <= i < |d| ==> IsDigit(d[i])
    ensures ParseInt(d) == None
  {
    assert !IsIntSpace(d[0]) && !IsIntSpace(d[|d| - 1]);
    StripNoEdge(d, IsIntSpace);
  }
}

=== FILE: workflow.dfy ===
/**
 * The agentic query-refinement workflow of rag/agent/flow.py with the events
 * of rag/agent/events.py.
 *
 * Every reply of a language model or of the query engine is an input string,
 * so each step is a deterministic function of the session state, the event it
 * handles and the replies it consumes. The per-turn store (`query_data`)
 * becomes the datatype QueryData, the conversation memory an append-only
 * sequence of chat messages, and the workflow timeout a step budget (`fuel`).
 *
 * The pure functions below are the specification; the class AgenticWorkflow
 * at the end updates its fields step by step as the source does and is proved
 * to agree with them.
 */
module Workflow {
  import opened Common
  import opened Text

  /** The events the steps pass to each other, with the framework's start and stop events. */
  datatype Event =
    | StartEvent(query: string)
    | JudgeQueryEvent(query: string)
    | ImproveQueryEvent(query: string)
    | AttachContextEvent(query: string)
    | SearchEvent(query: string)
    | JudgeResponseEvent(query: string, response: string, data: Option<string>)
    | ReQueryEvent(query: string, response: string)
    | AnswerEvent(query: string, response: string)
    | StopEvent(result: string)

  /** The step that handles each event. */
  datatype Step = Initialize | JudgeQuery | ImproveQuery | GenerateContext | Search | Judge | ReQuery | Answer

  /** The outside capabilities a step consults; each consultation consumes one reply. */
  datatype Call = QueryJudge | QueryImprover | ContextBuilder | QueryEngine | ResponseJudge | QueryRewriter | Answerer

  datatype Role = User | Assistant

  datatype ChatMessage = ChatMessage(role: Role, content: string)

  /**
   * The per-turn store: the turn's original query, the working query, the
   * answers found so far keyed by search query, and the query judge's
   * bookkeeping (absent until the judge first runs in the turn).
   */
  datatype QueryData = QueryData(
    originalQuery: string,
    query: string,
    responses: map<string, string>,
    judgeQuery: Option<string>,
    judgeCount: Option<int>)

  /**
   * What lives in the workflow context across turns: whether the model
   * handles were set up, the current turn's store (none before the first
   * turn) and the conversation memory.
   */
  datatype Session = Session(handlesReady: bool, queryData: Option<QueryData>, memory: seq<ChatMessage>)

  /** A step's new session and the event it emits. */
  datatype Transition = Transition(session: Session, next: Event)

  /** `judge_count` read with its default of 0. */
  function JudgeCount(d: QueryData): int {
    d.judgeCount.GetOr(0)
  }

  /** The guard of `judge_query`: the judge runs only for a new query and only while the count is below 1. */
  predicate ShouldJudge(d: QueryData) {
    d.judgeQuery != Some(d.query) && JudgeCount(d) < 1
  }

  function StepFor(ev: Event): (step: Step)
    requires !ev.StopEvent?
    ensures step == Search <==> ev.SearchEvent?
    ensures step == ReQuery <==> ev.ReQueryEvent?
    ensures step == ImproveQuery <==> ev.ImproveQueryEvent?
    ensures step == Answer <==> ev.AnswerEvent?
  {
    match ev
    case StartEvent(_) => Initialize
    case JudgeQueryEvent(_) => JudgeQuery
    case ImproveQueryEvent(_) => ImproveQuery
    case AttachContextEvent(_) => GenerateContext
    case SearchEvent(_) => Search
    case JudgeResponseEvent(_, _, _) => Judge
    case ReQueryEvent(_, _) => ReQuery
    case AnswerEvent(_, _) => Answer
  }

  /** A session a step other than `initialize` can run in: a turn has started. */
  predicate InTurn(s: Session) {
    s.queryData.Some?
  }

  /** `initialize`: sets up the handles once, then replaces the per-turn store. */
  function StartTurn(s: Session, query: string): (t: Transition)
    ensures t.session.handlesReady && t.session.memory == s.memory
    ensures t.session.queryData.Some?
    ensures var d := t.session.queryData.value;
      d.originalQuery == query && d.query == query && d.responses == map[]
      && d.judgeQuery.None? && d.judgeCount.None? && JudgeCount(d) == 0
    ensures t.next == JudgeQueryEvent(query)
  {
    Transition(Session(true, Some(QueryData(query, query, map[], None, None)), s.memory), JudgeQueryEvent(query))
  }

  /**
   * `judge_query`: consults the query judge when ShouldJudge holds, recording
   * the judged query and raising the count; otherwise the verdict is
   * "repeated". Only the stripped reply "bad" leads to ImproveQuery.
   */
  function JudgeQueryStep(s: Session, query: string, reply: string): (t: Transition)
    requires InTurn(s)
    ensures InTurn(t.session) && t.session.memory == s.memory && t.session.handlesReady == s.handlesReady
    ensures var d, d' := s.queryData.value, t.session.queryData.value;
      && d'.originalQuery == d.originalQuery && d'.query == d.query && d'.responses == d.responses
      && (ShouldJudge(d) ==> d'.judgeQuery == Some(d.query) && JudgeCount(d') == JudgeCount(d) + 1)
      && (!ShouldJudge(d) ==> d' == d)
    ensures (t.next.ImproveQueryEvent? || t.next.AttachContextEvent?) && t.next.query == query
    ensures t.next.ImproveQueryEvent? <==> ShouldJudge(s.queryData.value) && Strip(reply) == "bad"
  {
    var d := s.queryData.value;
    if ShouldJudge(d) then
      var d' := d.(judgeQuery := Some(d.query), judgeCount := Some(JudgeCount(d) + 1));
      var response := Strip(reply);
      Transition(s.(queryData := Some(d')), if response == "bad" then ImproveQueryEvent(query) else AttachContextEvent(query))
    else
      Transition(s, AttachContextEvent(query))
  }

  /** `improve_query`: the stripped rewrite goes back to the judge; nothing is stored. */
  function ImproveQueryStep(reply: string): (ev: Event)
    ensures ev.JudgeQueryEvent? && NoEdge(ev.query, IsSpace)
  {
    JudgeQueryEvent(Strip(reply))
  }

  /**
   * The search query of `generate_context`: the query itself when the memory
   * is empty, otherwise the generated context, a blank line and the query.
   */
  function SearchQueryFor(memory: seq<ChatMessage>, query: string, context: string): (r: string)
    ensures |memory| == 0 ==> r == query
    ensures |query| <= |r| && r[|r| - |query|..] == query
    ensures |memory| > 0 ==> r[..|r| - |query|] == context + "\n\n"
  {
    if |memory| == 0 then query else context + "\n\n" + query
  }

  /**
   * `search`: the stripped engine answer is recorded twice, as a user/assistant
   * pair appended to the memory and under the search query in `responses`.
   */
  function SearchStep(s: Session, query: string, reply: string): (t: Transition)
    requires InTurn(s)
    ensures InTurn(t.session) && t.session.handlesReady == s.handlesReady
    ensures t.session.memory == s.memory + [ChatMessage(User, query), ChatMessage(Assistant, Strip(reply))]
    ensures var d, d' := s.queryData.value, t.session.queryData.value;
      && d' == d.(responses := d'.responses)
      && d'.responses.Keys == d.responses.Keys + {query}
      && d'.responses[query] == Strip(reply)
      && (forall k :: k in d.responses && k != query ==> d'.responses[k] == d.responses[k])
    ensures t.next == JudgeResponseEvent(query, Strip(reply), None)
  {
    var d := s.queryData.value;
    var response := Strip(reply);
    var memory := s.memory + [ChatMessage(User, query), ChatMessage(Assistant, response)];
    Transition(Session(s.handlesReady, Some(d.(responses := d.responses[query := response])), memory),
               JudgeResponseEvent(query, response, None))
  }

  /**
   * The response judge's verdict: the first line of the stripped reply,
   * stripped. None where the source raises (an empty reply has no lines).
   */
  function Verdict(reply: string): (v: Option<string>)
    ensures v.None? <==> Strip(reply) == ""
    ensures v.Some? ==> NoEdge(v.value, IsSpace)
    ensures v.Some? ==> forall j :: 0 <= j < |v.value| ==> !IsLineBoundary(v.value[j])
  {
    match FirstLine(Strip(reply))
    case None => None
    case Some(line) =>
      var v := Strip(line);
      assert forall j :: 0 <= j < |v| ==> v[j] == line[Leading(line, IsSpace) + j];
      Some(v)
  }

  /**
   * `judge`: only the verdict "retry" leads to ReQuery, every other verdict to
   * Answer, both carrying the query and response unchanged; an empty reply
   * raises IndexError.
   */
  function JudgeStep(query: string, response: string, reply: string): (r: Result<Event>)
    ensures r.Err? <==> Strip(reply) == ""
    ensures r.Ok? ==> r.value == ReQueryEvent(query, response) || r.value == AnswerEvent(query, response)
    ensures r == Ok(ReQueryEvent(query, response)) <==> Verdict(reply) == Some("retry")
  {
    match Verdict(reply)
    case None => Err(IndexError("list index out of range"))
    case Some(result) =>
      if result == "retry" then Ok(ReQueryEvent(query, response)) else Ok(AnswerEvent(query, response))
  }

  /**
   * `re_query`: of its two rewriter replies only the second is kept; it becomes
   * the stored working query and goes back to the judge. The judge's
   * bookkeeping is left as it is, so no counter limits this loop.
   */
  function ReQueryStep(s: Session, rewrite: string): (t: Transition)
    requires InTurn(s)
    ensures InTurn(t.session) && t.session.memory == s.memory && t.session.handlesReady == s.handlesReady
    ensures t.session.queryData.value == s.queryData.value.(query := Strip(rewrite))
    ensures t.next == JudgeQueryEvent(t.session.queryData.value.query)
  {
    var d := s.queryData.value;
    var response := Strip(rewrite);
    Transition(s.(queryData := Some(d.(query := response))), JudgeQueryEvent(response))
  }

  /** `answer`: the answering model's reply is the turn's result. */
  function AnswerStep(reply: string): (ev: Event)
    ensures ev.StopEvent? && ev.result == reply
  {
    StopEvent(reply)
  }

  /** The capabilities the step for `ev` consults in session `s`, in order. */
  function CallsFor(s: Session, ev: Event): (r: seq<Call>)
    requires !ev.StopEvent? && (ev.StartEvent? || InTurn(s))
    ensures Count(r, QueryJudge) == if ev.JudgeQueryEvent? && ShouldJudge(s.queryData.value) then 1 else 0
    ensures ev.AnswerEvent? <==> r == [Answerer]
  {
    match ev
    case StartEvent(_) => []
    case JudgeQueryEvent(_) => if ShouldJudge(s.queryData.value) then [QueryJudge] else []
    case ImproveQueryEvent(_) => [QueryImprover]
    case AttachContextEvent(_) => if |s.memory| == 0 then [] else [ContextBuilder]
    case SearchEvent(_) => [QueryEngine]
    case JudgeResponseEvent(_, _, _) => [ResponseJudge]
    case ReQueryEvent(_, _) => [QueryRewriter, QueryRewriter]
    case AnswerEvent(_, _) => [Answerer]
  }

  function Reply(replies: seq<string>, i: nat): string {
    if i < |replies| then replies[i] else ""
  }

  datatype StepResult = StepResult(session: Session, next: Result<Event>)

  /** One step of the workflow: the handler for `ev`, fed the replies it consumes. */
  function RunStep(s: Session, ev: Event, replies: seq<string>): (r: StepResult)
    requires !ev.StopEvent? && (ev.StartEvent? || InTurn(s))
    ensures InTurn(r.session) && r.session.handlesReady == (s.handlesReady || ev.StartEvent?)
    ensures r.next.Ok? ==> !r.next.value.StartEvent?
    // only Search writes the memory, appending one user/assistant pair
    ensures ev.SearchEvent? ==>
      r.session.memory == s.memory + [ChatMessage(User, ev.query), ChatMessage(Assistant, Strip(Reply(replies, 0)))]
    ensures !ev.SearchEvent? ==> r.session.memory == s.memory
    // inside a turn the original query stays, and only ReQuery writes the working query
    ensures !ev.StartEvent? ==> r.session.queryData.value.originalQuery == s.queryData.value.originalQuery
    ensures !ev.StartEvent? && !ev.ReQueryEvent? ==> r.session.queryData.value.query == s.queryData.value.query
    // the judge's count rises exactly when the judge is consulted, and only then can ImproveQuery follow
    ensures !ev.StartEvent? ==>
      (JudgeCount(r.session.queryData.value) == JudgeCount(s.queryData.value) + Count(CallsFor(s, ev), QueryJudge))
    ensures r.next.Ok? && r.next.value.ImproveQueryEvent? ==> Count(CallsFor(s, ev), QueryJudge) == 1
    // the turn stops only after Answer
    ensures r.next.Ok? && r.next.value.StopEvent? ==> ev.AnswerEvent?
  {
    match ev
    case StartEvent(q) =>
      var t := StartTurn(s, q); StepResult(t.session, Ok(t.next))
    case JudgeQueryEvent(q) =>
      var t := JudgeQueryStep(s, q, Reply(replies, 0)); StepResult(t.session, Ok(t.next))
    case ImproveQueryEvent(q) =>
      StepResult(s, Ok(ImproveQueryStep(Reply(replies, 0))))
    case AttachContextEvent(q) =>
      StepResult(s, Ok(SearchEvent(SearchQueryFor(s.memory, q, Reply(replies, 0)))))
    case SearchEvent(q) =>
      var t := SearchStep(s, q, Reply(replies, 0)); StepResult(t.session, Ok(t.next))
    case JudgeResponseEvent(q, response, _) =>
      StepResult(s, JudgeStep(q, response, Reply(replies, 0)))
    case ReQueryEvent(q, response) =>
      var t := ReQueryStep(s, Reply(replies, 1)); StepResult(t.session, Ok(t.next))
    case AnswerEvent(q, response) =>
      StepResult(s, Ok(AnswerStep(Reply(replies, 0))))
  }

  /**
   * How a run ends: with the answer, with an exception, with the step budget
   * spent (the workflow timeout), or waiting for a reply the input does not
   * hold.
   */
  datatype Outcome =
    | Answered(answer: string)
    | Raised(error: Exception)
    | TimedOut(pending: Event)
    | AwaitingReply(pending: Event)

  /** The final session and outcome of a run, with the steps it ran and the capabilities it consulted. */
  datatype Trace = Trace(session: Session, outcome: Outcome, steps: seq<Step>, calls: seq<Call>)

  /** A trace `t` preceded by one step that consulted `need`. */
  function Prepend(step: Step, need: seq<Call>, t: Trace): Trace {
    Trace(t.session, t.outcome, [step] + t.steps, need + t.calls)
  }

  /**
   * The workflow driven from event `ev` with `fuel` steps and the given
   * replies: it stops at the stop event, when the budget is spent or when the
   * next step needs a reply the input does not hold, and otherwise advances.
   */
  function Run(s: Session, ev: Event, replies: seq<string>, fuel: nat): (t: Trace)
    requires ev.StartEvent? || ev.StopEvent? || InTurn(s)
    ensures InTurn(s) ==> InTurn(t.session)
    decreases fuel, 1
  {
    if ev.StopEvent? then Trace(s, Answered(ev.result), [], [])
    else if fuel == 0 then Trace(s, TimedOut(ev), [], [])
    else if |replies| < |CallsFor(s, ev)| then Trace(s, AwaitingReply(ev), [], [])
    else Advance(s, ev, replies, fuel)
  }

  /** Runs the step for `ev`; a raised exception ends the run, otherwise it goes on from the emitted event. */
  function Advance(s: Session, ev: Event, replies: seq<string>, fuel: nat): (t: Trace)
    requires !ev.StopEvent? && (ev.StartEvent? || InTurn(s)) && fuel > 0 && |replies| >= |CallsFor(s, ev)|
    ensures InTurn(t.session)
    decreases fuel, 0
  {
    var need := CallsFor(s, ev);
    var r := RunStep(s, ev, replies);
    match r.next
    case Err(e) => Trace(r.session, Raised(e), [StepFor(ev)], need)
    case Ok(next) => Prepend(StepFor(ev), need, Run(r.session, next, replies[|need|..], fuel - 1))
  }

  /** Run after one step that succeeded. */
  lemma RunAfterStep(s: Session, ev: Event, replies: seq<string>, fuel: nat)
    requires !ev.StopEvent? && (ev.StartEvent? || InTurn(s)) && fuel > 0
    requires |replies| >= |CallsFor(s, ev)| && RunStep(s, ev, replies).next.Ok?
    ensures var need, r := CallsFor(s, ev), RunStep(s, ev, replies);
      Run(s, ev, replies, fuel) == Prepend(StepFor(ev), need, Run(r.session, r.next.value, replies[|need|..], fuel - 1))
  {
    assert Run(s, ev, replies, fuel) == Advance(s, ev, replies, fuel);
  }

  /** The run `t` recorded after the steps and calls already made. */
  function After(steps: seq<Step>, calls: seq<Call>, t: Trace): Trace {
    Trace(t.session, t.outcome, steps + t.steps, calls + t.calls)
  }

  /** Recording one step and then the rest of the run is recording the run from that step. */
  lemma PrependExtends(steps: seq<Step>, calls: seq<Call>, step: Step, need: seq<Call>, t: Trace)
    ensures After(steps, calls, Prepend(step, need, t)) == After(steps + [step], calls + need, t)
  {
    assert steps + ([step] + t.steps) == (steps + [step]) + t.steps;
    assert calls + (need + t.calls) == (calls + need) + t.calls;
  }

  /** One conversation turn: the workflow run for a new user query. */
  function Turn(s: Session, query: string, replies: seq<string>, fuel: nat): Trace {
    Run(s, StartEvent(query), replies, fuel)
  }

  // ---------------------------------------------------------------------------
  // Properties of a turn

  /** A run that stops before running a step: the turn is over, out of budget or out of replies. */
  predicate Halts(s: Session, ev: Event, replies: seq<string>, fuel: nat)
    requires ev.StartEvent? || ev.StopEvent? || InTurn(s)
  {
    ev.StopEvent? || fuel == 0 || |replies| < |CallsFor(s, ev)|
  }

  /** A run that runs a step which succeeds, and goes on. */
  predicate Continues(s: Session, ev: Event, replies: seq<string>, fuel: nat)
    requires ev.StartEvent? || ev.StopEvent? || InTurn(s)
  {
    !Halts(s, ev, replies, fuel) && RunStep(s, ev, replies).next.Ok?
  }

  /** The run that follows the first step of a run that continues. */
  function RestOfRun(s: Session, ev: Event, replies: seq<string>, fuel: nat): Trace
    requires ev.StartEvent? || ev.StopEvent? || InTurn(s)
    requires Continues(s, ev, replies, fuel)
  {
    var r := RunStep(s, ev, replies);
    Run(r.session, r.next.value, replies[|CallsFor(s, ev)|..], fuel - 1)
  }

  /** A run that halts runs no step; one whose step raises ends there. */
  lemma RunStops(s: Session, ev: Event, replies: seq<string>, fuel: nat)
    requires ev.StartEvent? || ev.StopEvent? || InTurn(s)
    requires !Continues(s, ev, replies, fuel)
    ensures var t := Run(s, ev, replies, fuel);
      && (Halts(s, ev, replies, fuel) ==> t.session == s && t.steps == [] && t.calls == [] && !t.outcome.Raised?)
      && (Halts(s, ev, replies, fuel) && ev.StopEvent? ==> t.outcome == Answered(ev.result))
      && (!Halts(s, ev, replies, fuel) ==>
            t.session == RunStep(s, ev, replies).session && t.steps == [StepFor(ev)]
            && t.calls == CallsFor(s, ev) && t.outcome.Raised?)
  {
    if !Halts(s, ev, replies, fuel) {
      assert Run(s, ev, replies, fuel) == Advance(s, ev, replies, fuel);
    }
  }

  /** The memory of `t` extends that of `s` by two messages per Search step. */
  predicate MemoryExtended(s: Session, t: Trace) {
    s.memory <= t.session.memory && |t.session.memory| == |s.memory| + 2 * Count(t.steps, Search)
  }

  lemma MemoryExtendedAfterStep(s: Session, ev: Event, replies: seq<string>, fuel: nat)
    requires ev.StartEvent? || ev.StopEvent? || InTurn(s)
    requires Continues(s, ev, replies, fuel)
    requires MemoryExtended(RunStep(s, ev, replies).session, RestOfRun(s, ev, replies, fuel))
    ensures MemoryExtended(s, Run(s, ev, replies, fuel))
  {
    RunAfterStep(s, ev, replies, fuel);
    CountConcat([StepFor(ev)], RestOfRun(s, ev, replies, fuel).steps, Search);
  }

  /**
   * The memory only grows: every run keeps what was there and adds exactly two
   * messages per Search step.
   */
  lemma {:induction false} MemoryGrowsOnlyBySearch(s: Session, ev: Event, replies: seq<string>, fuel: nat)
    requires ev.StartEvent? || ev.StopEvent? || InTurn(s)
    ensures MemoryExtended(s, Run(s, ev, replies, fuel))
    decreases fuel
  {
    if Continues(s, ev, replies, fuel) {
      var r := RunStep(s, ev, replies);
      MemoryGrowsOnlyBySearch(r.session, r.next.value, replies[|CallsFor(s, ev)|..], fuel - 1);
      MemoryExtendedAfterStep(s, ev, replies, fuel);
    } else {
      RunStops(s, ev, replies, fuel);
    }
  }

  /** In `t` the original query of `s` is kept, and so is the working query unless `t` re-queried. */
  predicate QueryKept(s: Session, t: Trace)
    requires InTurn(s)
  {
    && InTurn(t.session)
    && t.session.queryData.value.originalQuery == s.queryData.value.originalQuery
    && (Count(t.steps, ReQuery) == 0 ==> t.session.queryData.value.query == s.queryData.value.query)
  }

  lemma QueryKeptAfterStep(s: Session, ev: Event, replies: seq<string>, fuel: nat)
    requires InTurn(s) && !ev.StartEvent?
    requires Continues(s, ev, replies, fuel)
    requires QueryKept(RunStep(s, ev, replies).session, RestOfRun(s, ev, replies, fuel))
    ensures QueryKept(s, Run(s, ev, replies, fuel))
  {
    RunAfterStep(s, ev, replies, fuel);
    CountConcat([StepFor(ev)], RestOfRun(s, ev, replies, fuel).steps, ReQuery);
  }

  /**
   * Within a turn the original query never changes, and the working query
   * changes only through ReQuery steps.
   */
  lemma {:induction false} QueryChangesOnlyByReQuery(s: Session, ev: Event, replies: seq<string>, fuel: nat)
    requires InTurn(s) && !ev.StartEvent?
    ensures QueryKept(s, Run(s, ev, replies, fuel))
    decreases fuel
  {
    if Continues(s, ev, replies, fuel) {
      var r := RunStep(s, ev, replies);
      QueryChangesOnlyByReQuery(r.session, r.next.value, replies[|CallsFor(s, ev)|..], fuel - 1);
      QueryKeptAfterStep(s, ev, replies, fuel);
    } else {
      RunStops(s, ev, replies, fuel);
    }
  }

  /** A turn keeps its incoming query as the original query throughout, and as the working query unless it re-queries. */
  lemma TurnKeepsOriginalQuery(s: Session, query: string, replies: seq<string>, fuel: nat)
    requires fuel >= 1
    ensures var t := Turn(s, query, replies, fuel);
      && InTurn(t.session) && t.session.queryData.value.originalQuery == query
      && (Count(t.steps, ReQuery) == 0 ==> t.session.queryData.value.query == query)
  {
    var s0 := StartTurn(s, query).session;
    TurnStart(s, query, replies, fuel);
    QueryChangesOnlyByReQuery(s0, JudgeQueryEvent(query), replies, fuel - 1);
    CountAfterInitialize(Run(s0, JudgeQueryEvent(query), replies, fuel - 1));
  }

  /** The judge has not yet run in this turn (count 0) or has run (count 1). */
  predicate CountInRange(s: Session) {
    InTurn(s) && 0 <= JudgeCount(s.queryData.value) <= 1
  }

  /** How many more times the query judge may run in this turn. */
  function JudgeBudget(s: Session): nat
    requires CountInRange(s)
  {
    1 - JudgeCount(s.queryData.value)
  }

  function IfImprove(ev: Event): nat {
    if ev.ImproveQueryEvent? then 1 else 0
  }

  /** A pending event and session from which the judge's budget bounds the rest of the turn. */
  predicate BudgetState(s: Session, ev: Event) {
    CountInRange(s) && !ev.StartEvent? && (ev.ImproveQueryEvent? ==> JudgeBudget(s) == 0)
  }

  /** `t` consults the judge within the budget of `s`, and runs ImproveQuery no more often than that allows. */
  predicate WithinBudget(s: Session, ev: Event, t: Trace)
    requires CountInRange(s)
  {
    Count(t.calls, QueryJudge) <= JudgeBudget(s) && Count(t.steps, ImproveQuery) <= JudgeBudget(s) + IfImprove(ev)
  }

  lemma WithinBudgetAfterStep(s: Session, ev: Event, replies: seq<string>, fuel: nat)
    requires BudgetState(s, ev)
    requires Continues(s, ev, replies, fuel)
    requires var r := RunStep(s, ev, replies);
      BudgetState(r.session, r.next.value) && WithinBudget(r.session, r.next.value, RestOfRun(s, ev, replies, fuel))
    ensures WithinBudget(s, ev, Run(s, ev, replies, fuel))
  {
    var t := RestOfRun(s, ev, replies, fuel);
    RunAfterStep(s, ev, replies, fuel);
    CountConcat(CallsFor(s, ev), t.calls, QueryJudge);
    CountConcat([StepFor(ev)], t.steps, ImproveQuery);
  }

  lemma BudgetStateAfterStep(s: Session, ev: Event, replies: seq<string>, fuel: nat)
    requires BudgetState(s, ev)
    requires Continues(s, ev, replies, fuel)
    ensures BudgetState(RunStep(s, ev, replies).session, RunStep(s, ev, replies).next.value)
  {
  }

  lemma WithinBudgetWhenStopped(s: Session, ev: Event, replies: seq<string>, fuel: nat)
    requires BudgetState(s, ev)
    requires !Continues(s, ev, replies, fuel)
    ensures WithinBudget(s, ev, Run(s, ev, replies, fuel))
  {
    RunStops(s, ev, replies, fuel);
  }

  /**
   * Within a turn, the query judge is consulted no more often than its budget
   * allows, and ImproveQuery runs no more often than the judge could have said
   * "bad" (plus the pending event itself).
   */
  lemma {:induction false} JudgeWithinBudget(s: Session, ev: Event, replies: seq<string>, fuel: nat)
    requires BudgetState(s, ev)
    ensures WithinBudget(s, ev, Run(s, ev, replies, fuel))
    decreases fuel
  {
    if Continues(s, ev, replies, fuel) {
      var r := RunStep(s, ev, replies);
      BudgetStateAfterStep(s, ev, replies, fuel);
      JudgeWithinBudget(r.session, r.next.value, replies[|CallsFor(s, ev)|..], fuel - 1);
      WithinBudgetAfterStep(s, ev, replies, fuel);
    } else {
      WithinBudgetWhenStopped(s, ev, replies, fuel);
    }
  }

  /** A turn is Initialize followed by the run from the turn's first JudgeQuery. */
  lemma TurnStart(s: Session, query: string, replies: seq<string>, fuel: nat)
    requires fuel > 0
    ensures Turn(s, query, replies, fuel)
      == Prepend(Initialize, [], Run(StartTurn(s, query).session, JudgeQueryEvent(query), replies, fuel - 1))
  {
    RunAfterStep(s, StartEvent(query), replies, fuel);
  }

  lemma CountAfterInitialize(t: Trace)
    ensures Count(Prepend(Initialize, [], t).calls, QueryJudge) == Count(t.calls, QueryJudge)
    ensures Count(Prepend(Initialize, [], t).steps, ImproveQuery) == Count(t.steps, ImproveQuery)
    ensures Count(Prepend(Initialize, [], t).steps, ReQuery) == Count(t.steps, ReQuery)
  {
    CountConcat([Initialize], t.steps, ImproveQuery);
    CountConcat([Initialize], t.steps, ReQuery);
    assert [] + t.calls == t.calls;
  }

  /** The query judge runs at most once per turn, and so does ImproveQuery. */
  lemma JudgeAtMostOncePerTurn(s: Session, query: string, replies: seq<string>, fuel: nat)
    ensures Count(Turn(s, query, replies, fuel).calls, QueryJudge) <= 1
    ensures Count(Turn(s, query, replies, fuel).steps, ImproveQuery) <= 1
  {
    if fuel > 0 {
      var s0 := StartTurn(s, query).session;
      TurnStart(s, query, replies, fuel);
      JudgeWithinBudget(s0, JudgeQueryEvent(query), replies, fuel - 1);
      CountAfterInitialize(Run(s0, JudgeQueryEvent(query), replies, fuel - 1));
    }
  }

  /** The first JudgeQuery of a turn does consult the judge, with the turn's first reply. */
  lemma FirstJudgeQueryConsults(s: Session, query: string, replies: seq<string>, fuel: nat)
    requires fuel >= 2 && |replies| >= 1
    ensures var t := Turn(s, query, replies, fuel);
      |t.steps| >= 2 && t.steps[..2] == [Initialize, JudgeQuery] && |t.calls| >= 1 && t.calls[0] == QueryJudge
  {
    var t0 := StartTurn(s, query);
    assert CallsFor(t0.session, t0.next) == [QueryJudge];
    RunAfterStep(s, StartEvent(query), replies, fuel);
    RunAfterStep(t0.session, t0.next, replies, fuel - 1);
  }

  /** If `t` answered, its last step was Answer and its last consultation the answering model. */
  predicate AnswerLast(t: Trace) {
    t.outcome.Answered? ==>
      (|t.steps| > 0 && t.steps[|t.steps| - 1] == Answer && |t.calls| > 0 && t.calls[|t.calls| - 1] == Answerer)
  }

  lemma AnswerLastAfterStep(s: Session, ev: Event, replies: seq<string>, fuel: nat)
    requires (ev.StartEvent? || InTurn(s)) && !ev.StopEvent?
    requires Continues(s, ev, replies, fuel)
    requires var r := RunStep(s, ev, replies);
      r.next.value.StopEvent? || AnswerLast(RestOfRun(s, ev, replies, fuel))
    ensures AnswerLast(Run(s, ev, replies, fuel))
  {
    RunAfterStep(s, ev, replies, fuel);
    var r := RunStep(s, ev, replies);
    if r.next.value.StopEvent? {
      RunStops(r.session, r.next.value, replies[|CallsFor(s, ev)|..], fuel - 1);
    }
  }

  lemma AnswerLastWhenStopped(s: Session, ev: Event, replies: seq<string>, fuel: nat)
    requires (ev.StartEvent? || InTurn(s)) && !ev.StopEvent?
    requires !Continues(s, ev, replies, fuel)
    ensures AnswerLast(Run(s, ev, replies, fuel))
  {
    RunStops(s, ev, replies, fuel);
  }

  /** A run answers only through the Answer step, the last step it runs and the last capability it consults. */
  lemma {:induction false} AnsweredOnlyByAnswerStep(s: Session, ev: Event, replies: seq<string>, fuel: nat)
    requires (ev.StartEvent? || InTurn(s)) && !ev.StopEvent?
    ensures AnswerLast(Run(s, ev, replies, fuel))
    decreases fuel
  {
    if Continues(s, ev, replies, fuel) {
      var r := RunStep(s, ev, replies);
      if !r.next.value.StopEvent? {
        AnsweredOnlyByAnswerStep(r.session, r.next.value, replies[|CallsFor(s, ev)|..], fuel - 1);
      }
      AnswerLastAfterStep(s, ev, replies, fuel);
    } else {
      AnswerLastWhenStopped(s, ev, replies, fuel);
    }
  }

  /** A session in the middle of a turn whose query judge has already run and whose memory is not empty. */
  predicate JudgeSpent(s: Session) {
    InTurn(s) && JudgeCount(s.queryData.value) >= 1 && |s.memory| > 0
  }

  /** JudgeQuery once the judge has run: no consultation, straight on to AttachContext. */
  lemma RunJudgeQuerySpent(s: Session, q: string, replies: seq<string>, fuel: nat)
    requires JudgeSpent(s) && fuel > 0
    ensures Run(s, JudgeQueryEvent(q), replies, fuel)
      == Prepend(JudgeQuery, [], Run(s, AttachContextEvent(q), replies, fuel - 1))
  {
    assert CallsFor(s, JudgeQueryEvent(q)) == [];
    RunAfterStep(s, JudgeQueryEvent(q), replies, fuel);
  }

  /** AttachContext with a non-empty memory consults the context builder. */
  lemma RunAttachContext(s: Session, q: string, replies: seq<string>, fuel: nat)
    requires JudgeSpent(s) && fuel > 0 && |replies| >= 1
    ensures Run(s, AttachContextEvent(q), replies, fuel)
      == Prepend(GenerateContext, [ContextBuilder],
                 Run(s, SearchEvent(SearchQueryFor(s.memory, q, replies[0])), replies[1..], fuel - 1))
  {
    RunAfterStep(s, AttachContextEvent(q), replies, fuel);
  }

  lemma RunSearch(s: Session, q: string, replies: seq<string>, fuel: nat)
    requires InTurn(s) && fuel > 0 && |replies| >= 1
    ensures Run(s, SearchEvent(q), replies, fuel)
      == Prepend(Search, [QueryEngine],
                 Run(SearchStep(s, q, replies[0]).session, JudgeResponseEvent(q, Strip(replies[0]), None), replies[1..], fuel - 1))
  {
    RunAfterStep(s, SearchEvent(q), replies, fuel);
  }

  lemma RunJudgeRetry(s: Session, q: string, a: string, replies: seq<string>, fuel: nat)
    requires InTurn(s) && fuel > 0 && |replies| >= 1 && Verdict(replies[0]) == Some("retry")
    ensures Run(s, JudgeResponseEvent(q, a, None), replies, fuel)
      == Prepend(Judge, [ResponseJudge], Run(s, ReQueryEvent(q, a), replies[1..], fuel - 1))
  {
    RunAfterStep(s, JudgeResponseEvent(q, a, None), replies, fuel);
  }

  lemma RunReQuery(s: Session, q: string, a: string, replies: seq<string>, fuel: nat)
    requires InTurn(s) && fuel > 0 && |replies| >= 2
    ensures Run(s, ReQueryEvent(q, a), replies, fuel)
      == Prepend(ReQuery, [QueryRewriter, QueryRewriter],
                 Run(ReQueryStep(s, replies[1]).session, JudgeQueryEvent(Strip(replies[1])), replies[2..], fuel - 1))
  {
    RunAfterStep(s, ReQueryEvent(q, a), replies, fuel);
  }

  /**
   * The five replies of one pass round the retry loop: context, engine
   * answer, a response verdict of "retry", and the two rewriter replies.
   */
  predicate RetryReplies(cycle: seq<string>) {
    |cycle| == 5 && Verdict(cycle[2]) == Some("retry")
  }

  /** The session after one pass round the retry loop for query `q`. */
  function AfterRetry(s: Session, q: string, cycle: seq<string>): Session
    requires InTurn(s) && |cycle| == 5
  {
    var searched := SearchStep(s, SearchQueryFor(s.memory, q, cycle[0]), cycle[1]).session;
    ReQueryStep(searched, cycle[4]).session
  }

  /** `u` preceded by one pass round the retry loop. */
  function AfterRetryPass(u: Trace): Trace {
    Trace(u.session, u.outcome, [JudgeQuery, GenerateContext, Search, Judge, ReQuery] + u.steps,
          [ContextBuilder, QueryEngine, ResponseJudge, QueryRewriter, QueryRewriter] + u.calls)
  }

  lemma AfterRetryPassUnfolds(u: Trace)
    ensures Prepend(JudgeQuery, [], Prepend(GenerateContext, [ContextBuilder], Prepend(Search, [QueryEngine],
              Prepend(Judge, [ResponseJudge], Prepend(ReQuery, [QueryRewriter, QueryRewriter], u)))))
      == AfterRetryPass(u)
  {
    assert [JudgeQuery] + ([GenerateContext] + ([Search] + ([Judge] + ([ReQuery] + u.steps))))
      == [JudgeQuery, GenerateContext, Search, Judge, ReQuery] + u.steps;
    assert [] + ([ContextBuilder] + ([QueryEngine] + ([ResponseJudge] + ([QueryRewriter, QueryRewriter] + u.calls))))
      == [ContextBuilder, QueryEngine, ResponseJudge, QueryRewriter, QueryRewriter] + u.calls;
  }

  /** A pass round the retry loop leaves the judge spent and the memory non-empty. */
  lemma AfterRetryStaysSpent(s: Session, q: string, cycle: seq<string>)
    requires JudgeSpent(s) && |cycle| == 5
    ensures JudgeSpent(AfterRetry(s, q, cycle))
  {
  }

  /** One pass round JudgeQuery, AttachContext, Search, JudgeResponse ("retry") and ReQuery. */
  lemma OneRetryPass(s: Session, q: string, cycle: seq<string>, rest: seq<string>, fuel: nat)
    requires JudgeSpent(s) && RetryReplies(cycle)
    ensures Run(s, JudgeQueryEvent(q), cycle + rest, fuel + 5)
      == AfterRetryPass(Run(AfterRetry(s, q, cycle), JudgeQueryEvent(Strip(cycle[4])), rest, fuel))
  {
    var r0 := cycle + rest;
    var r1, r2, r3 := r0[1..], r0[2..], r0[3..];
    assert r0[0] == cycle[0] && r1[0] == cycle[1] && r2[0] == cycle[2] && r3[1] == cycle[4];
    assert r1 == r0[1..] && r2 == r1[1..] && r3 == r2[1..] && r3[2..] == rest;
    RunJudgeQuerySpent(s, q, r0, fuel + 5);
    RunAttachContext(s, q, r0, fuel + 4);
    var q2 := SearchQueryFor(s.memory, q, cycle[0]);
    RunSearch(s, q2, r1, fuel + 3);
    var s3 := SearchStep(s, q2, cycle[1]).session;
    RunJudgeRetry(s3, q2, Strip(cycle[1]), r2, fuel + 2);
    RunReQuery(s3, q2, Strip(cycle[1]), r3, fuel + 1);
    AfterRetryPassUnfolds(Run(AfterRetry(s, q, cycle), JudgeQueryEvent(Strip(cycle[4])), rest, fuel));
  }

  /** A concrete pass round the retry loop, whose verdict reply follows the judge's documented format. */
  function RetryCycle(): seq<string> {
    ["context", "answer", "retry\nincomplete", "new query", "revised query"]
  }

  lemma RetryCycleSaysRetry()
    ensures RetryReplies(RetryCycle())
  {
    var verdict := "retry";
    forall j | 0 <= j < |verdict|
      ensures !IsSpace(verdict[j]) && !IsLineBoundary(verdict[j])
    {
      LetterIsNotSpace(verdict[j]);
    }
    VerdictOfFormattedReply(verdict, "incomplete");
    assert RetryCycle()[2] == verdict + "\n" + "incomplete";
  }

  /** `cycle` repeated `k` times. */
  function Repeat(cycle: seq<string>, k: nat): seq<string> {
    if k == 0 then [] else cycle + Repeat(cycle, k - 1)
  }

  /** `t` ran out of budget while waiting to judge a query, after `k` re-queries. */
  predicate StillRetrying(t: Trace, k: nat) {
    t.outcome.TimedOut? && t.outcome.pending.JudgeQueryEvent? && Count(t.steps, ReQuery) == k
  }

  lemma StillRetryingAfterPass(u: Trace, k: nat)
    requires StillRetrying(u, k)
    ensures StillRetrying(AfterRetryPass(u), k + 1)
  {
    CountConcat([JudgeQuery, GenerateContext, Search, Judge, ReQuery], u.steps, ReQuery);
  }

  /**
   * The retry loop has no counter: for every k, replies that keep saying
   * "retry" drive k re-queries through 5k steps and the run is still not
   * answered, stopped only by the step budget.
   */
  lemma {:induction false} RetryLoopUnbounded(s: Session, q: string, cycle: seq<string>, k: nat)
    requires JudgeSpent(s) && RetryReplies(cycle)
    ensures StillRetrying(Run(s, JudgeQueryEvent(q), Repeat(cycle, k), 5 * k), k)
    decreases k
  {
    if k == 0 {
      RetryLoopBase(s, q, cycle);
    } else {
      AfterRetryStaysSpent(s, q, cycle);
      RetryLoopUnbounded(AfterRetry(s, q, cycle), Strip(cycle[4]), cycle, k - 1);
      RetryLoopStep(s, q, cycle, k);
    }
  }

  lemma RetryLoopBase(s: Session, q: string, cycle: seq<string>)
    requires InTurn(s)
    ensures StillRetrying(Run(s, JudgeQueryEvent(q), Repeat(cycle, 0), 0), 0)
  {
  }

  lemma RetryLoopStep(s: Session, q: string, cycle: seq<string>, k: nat)
    requires JudgeSpent(s) && RetryReplies(cycle) && k > 0
    requires StillRetrying(Run(AfterRetry(s, q, cycle), JudgeQueryEvent(Strip(cycle[4])), Repeat(cycle, k - 1), 5 * (k - 1)), k - 1)
    ensures StillRetrying(Run(s, JudgeQueryEvent(q), Repeat(cycle, k), 5 * k), k)
  {
    var rest, fuel := Repeat(cycle, k - 1), 5 * (k - 1);
    assert Repeat(cycle, k) == cycle + rest && 5 * k == fuel + 5;
    OneRetryPass(s, q, cycle, rest, fuel);
    var u := Run(AfterRetry(s, q, cycle), JudgeQueryEvent(Strip(cycle[4])), rest, fuel);
    StillRetryingAfterPass(u, k - 1);
  }

  /** The same with one concrete reply sequence: k passes of RetryCycle time out after k re-queries. */
  lemma RetryCycleNeverAnswers(s: Session, q: string, k: nat)
    requires JudgeSpent(s)
    ensures StillRetrying(Run(s, JudgeQueryEvent(q), Repeat(RetryCycle(), k), 5 * k), k)
  {
    RetryCycleSaysRetry();
    RetryLoopUnbounded(s, q, RetryCycle(), k);
  }

  /** The judge's documented reply format, a verdict line then reasons, gives back the verdict. */
  lemma VerdictOfFormattedReply(verdict: string, reason: string)
    requires verdict != "" && NoEdge(verdict, IsSpace)
    requires forall j :: 0 <= j < |verdict| ==> !IsLineBoundary(verdict[j])
    ensures Verdict(verdict + "\n" + reason) == Some(verdict)
  {
    var reply := verdict + "\n" + reason;
    var n := |verdict|;
    var stripped := Strip(reply);
    assert Leading(reply, IsSpace) == 0;
    assert reply[n - 1] == verdict[n - 1] && !IsSpace(reply[n - 1]);
    assert |stripped| >= n;
    assert stripped[..n] == verdict;
    if |stripped| > n {
      assert stripped[n] == '\n';
    }
    assert LineEnd(stripped) == n;
    StripNoEdge(verdict, IsSpace);
  }

  // ---------------------------------------------------------------------------
  // The workflow object

  /**
   * AgenticWorkflow: the context's fields are updated by one method per step,
   * each proved to agree with the step function above, and `RunTurn` drives one
   * turn from its start event, proved to agree with `Turn`.
   */
  class AgenticWorkflow {
    /** The workflow timeout in seconds; the model bounds a run by a step budget instead. */
    const timeout: nat
    var handlesReady: bool
    var queryData: Option<QueryData>
    var memory: seq<ChatMessage>

    constructor (timeout: nat := 45)
      ensures this.timeout == timeout
      ensures State() == Session(false, None, [])
    {
      this.timeout := timeout;
      handlesReady := false;
      queryData := None;
      memory := [];
    }

    function State(): Session
      reads this
    {
      Session(handlesReady, queryData, memory)
    }

    method Initialize(query: string) returns (next: Event)
      modifies this
      ensures State() == StartTurn(old(State()), query).session
      ensures next == StartTurn(old(State()), query).next
    {
      if !handlesReady {
        handlesReady := true;
      }
      queryData := Some(QueryData(query, query, map[], None, None));
      next := JudgeQueryEvent(query);
    }

    method JudgeQuery(query: string, reply: string) returns (next: Event)
      requires queryData.Some?
      modifies this
      ensures State() == JudgeQueryStep(old(State()), query, reply).session
      ensures next == JudgeQueryStep(old(State()), query, reply).next
    {
      var currentQuery := queryData.value.query;
      var judgeQuery := queryData.value.judgeQuery;
      var judgeCount := queryData.value.judgeCount.GetOr(0);
      var response;
      if judgeQuery != Some(currentQuery) && judgeCount < 1 {
        queryData := Some(queryData.value.(judgeQuery := Some(currentQuery)));
        queryData := Some(queryData.value.(judgeCount := Some(judgeCount + 1)));
        response := Strip(reply);
      } else {
        response := "repeated";
      }
      if response == "bad" {
        next := ImproveQueryEvent(query);
      } else {
        next := AttachContextEvent(query);
      }
    }

    /** Changes nothing: the rewrite only travels in the event. */
    method ImproveQuery(query: string, reply: string) returns (next: Event)
      ensures next == ImproveQueryStep(reply)
    {
      var response := Strip(reply);
      next := JudgeQueryEvent(response);
    }

    method GenerateContext(query: string, reply: string) returns (next: Event)
      ensures next == SearchEvent(SearchQueryFor(memory, query, reply))
    {
      if |memory| == 0 {
        return SearchEvent(query);
      }
      next := SearchEvent(reply + "\n\n" + query);
    }

    method Search(query: string, reply: string) returns (next: Event)
      requires queryData.Some?
      modifies this
      ensures State() == SearchStep(old(State()), query, reply).session
      ensures next == SearchStep(old(State()), query, reply).next
    {
      var response := Strip(reply);
      memory := memory + [ChatMessage(User, query)];
      memory := memory + [ChatMessage(Assistant, response)];
      var responses := queryData.value.responses;
      responses := responses[query := response];
      queryData := Some(queryData.value.(responses := responses));
      next := JudgeResponseEvent(query, response, None);
    }

    method Judge(query: string, response: string, reply: string) returns (next: Result<Event>)
      ensures next == JudgeStep(query, response, reply)
    {
      var verdict := Verdict(reply);
      if verdict.None? {
        return Err(IndexError("list index out of range"));
      }
      if verdict.value == "retry" {
        return Ok(ReQueryEvent(query, response));
      }
      next := Ok(AnswerEvent(query, response));
    }

    method ReQuery(query: string, response: string, newQuery: string, rewrite: string) returns (next: Event)
      requires queryData.Some?
      modifies this
      ensures State() == ReQueryStep(old(State()), rewrite).session
      ensures next == ReQueryStep(old(State()), rewrite).next
    {
      var revised := Strip(rewrite);
      queryData := Some(queryData.value.(query := revised));
      next := JudgeQueryEvent(revised);
    }

    method Answer(query: string, response: string, reply: string) returns (next: Event)
      ensures next == AnswerStep(reply)
    {
      next := StopEvent(reply);
    }

    /** Dispatches one event to its step, feeding it the replies it consumes. */
    method Dispatch(ev: Event, replies: seq<string>) returns (next: Result<Event>)
      requires !ev.StopEvent? && (ev.StartEvent? || queryData.Some?)
      modifies this
      ensures State() == RunStep(old(State()), ev, replies).session
      ensures next == RunStep(old(State()), ev, replies).next
    {
      match ev {
        case StartEvent(q) =>
          var e := Initialize(q); next := Ok(e);
        case JudgeQueryEvent(q) =>
          var e := JudgeQuery(q, Reply(replies, 0)); next := Ok(e);
        case ImproveQueryEvent(q) =>
          var e := ImproveQuery(q, Reply(replies, 0)); next := Ok(e);
        case AttachContextEvent(q) =>
          var e := GenerateContext(q, Reply(replies, 0)); next := Ok(e);
        case SearchEvent(q) =>
          var e := Search(q, Reply(replies, 0)); next := Ok(e);
        case JudgeResponseEvent(q, response, _) =>
          next := Judge(q, response, Reply(replies, 0));
        case ReQueryEvent(q, response) =>
          var e := ReQuery(q, response, Reply(replies, 0), Reply(replies, 1)); next := Ok(e);
        case AnswerEvent(q, response) =>
          var e := Answer(q, response, Reply(replies, 0)); next := Ok(e);
      }
    }

    /**
     * One round of the run loop from `ev`: either the run halts here (the
     * stop event, the budget spent, a missing reply, or a step that raises)
     * and `outcome` says how, or the step runs and `next` is the emitted
     * event. Either way `taken` and `need` are the step and the calls it
     * made, and a run from `ev` that completes `goal` after `steps` and
     * `calls` still completes it after them.
     */
    method RunRound(ev: Event, rest: seq<string>, budget: nat, ghost goal: Trace, ghost steps: seq<Step>, ghost calls: seq<Call>)
      returns (done: bool, outcome: Outcome, next: Event, left: seq<string>, spare: nat, taken: seq<Step>, need: seq<Call>)
      requires ev.StartEvent? || ev.StopEvent? || queryData.Some?
      requires goal == After(steps, calls, Run(State(), ev, rest, budget))
      modifies this
      ensures done ==> goal == Trace(State(), outcome, steps + taken, calls + need)
      ensures !done ==> (spare < budget && queryData.Some?
        && goal == After(steps + taken, calls + need, Run(State(), next, left, spare)))
    {
      ghost var s0 := State();
      taken, need, next, left, spare := [], [], ev, rest, budget;
      if ev.StopEvent? || budget == 0 || |rest| < |CallsFor(State(), ev)| {
        RunStops(s0, ev, rest, budget);
        outcome := if ev.StopEvent? then Answered(ev.result)
          else if budget == 0 then TimedOut(ev) else AwaitingReply(ev);
        assert Run(s0, ev, rest, budget) == Trace(s0, outcome, [], []);
        assert steps + [] == steps && calls + [] == calls;
        return true, outcome, next, left, spare, taken, need;
      }
      need := CallsFor(State(), ev);
      taken := [StepFor(ev)];
      var r := Dispatch(ev, rest);
      if r.Err? {
        RunStops(s0, ev, rest, budget);
        outcome := Raised(r.error);
        return true, outcome, next, left, spare, taken, need;
      }
      RunAfterStep(s0, ev, rest, budget);
      PrependExtends(steps, calls, StepFor(ev), need, Run(State(), r.value, rest[|need|..], budget - 1));
      done, outcome, next, left, spare := false, Answered(""), r.value, rest[|need|..], budget - 1;
    }

    /**
     * One turn: runs the steps from the start event for `query` until the
     * answer, an exception, the step budget or the replies run out.
     */
    method RunTurn(query: string, replies: seq<string>, fuel: nat)
      returns (outcome: Outcome, steps: seq<Step>, calls: seq<Call>)
      modifies this
      ensures Trace(State(), outcome, steps, calls) == Turn(old(State()), query, replies, fuel)
    {
      ghost var goal := Turn(State(), query, replies, fuel);
      var ev := StartEvent(query);
      var rest := replies;
      var budget := fuel;
      steps, calls := [], [];
      while true
        invariant ev.StartEvent? || ev.StopEvent? || queryData.Some?
        invariant goal == After(steps, calls, Run(State(), ev, rest, budget))
        decreases budget
      {
        var done, taken, need;
        done, outcome, ev, rest, budget, taken, need := RunRound(ev, rest, budget, goal, steps, calls);
        steps, calls := steps + taken, calls + need;
        if done {
          return;
        }
      }
    }
  }
}
